=== FILE: README.md ===
# skeletor-py core, modelled in Dafny

skeletor-py turns a video into a transparent-background VP9/WebM clip.
Only the people in the video stay visible: a MoveNet pose detector finds
their keypoints, a mask is drawn from the skeleton (torso polygon, bone
lines, joint disks), and each frame gets that mask as its alpha channel
over a white background.

The pipeline has three parts:
- a reader thread that decodes and enqueues frames;
- a pool of workers, each running `process_frame`;
- a control loop that collects finished frames into a map keyed by frame
  index and writes them to the encoder in index order.

The repository has two revisions of this pipeline:
- `modules/skeletor-py/video_processor.py` with its helper modules. In the
  model this is `Revision.Modular`.
- an earlier single-file draft, `modules/skeletor-py/main.py`. In the model
  this is `Revision.Draft`.

The shared logic is modelled once and takes the revision as a parameter
where the two differ.

| file | module | what it models |
|---|---|---|
| `basics.dfy` | `Basics` | `Option`, `Revision`, `int()` truncation of reals, clipping |
| `images.dfy` | `Images` | images as `height x width x channels` integer arrays; the all-zero BGRA blank |
| `skeleton.dfy` | `Skeleton` | `MODEL_INFO`, `KEYPOINT_DICT`, `SKELETON_LINES`, and the model-type lookup |
| `paths.dfy` | `Paths` | the `.webm` output-name rewrite, on top of `os.path.splitext` |
| `sizing.dfy` | `Sizing` | video checks, processing size, worker count, queue sizes, in-flight bound, sentinel count |
| `pose.dfy` | `PoseDetector` | `detect_pose`: input checks, letterbox, inverse mapping and clamping, single- and multi-pose selection |
| `masking.dfy` | `Masking` | `create_mask` as a draw plan plus post-processing decisions; painting as a union; `apply_mask` per pixel |
| `worker.dfy` | `Worker` | `process_frame` |
| `reader.dfy` | `Reader` | `frame_reader` as a state machine driven by observations of the queue |
| `reassembly.dfy` | `Reassembly` | the control loop: submission, collection, ordered draining, whole runs |

Foreign behaviour enters as parameters:
- `cv2.resize`, the detector's output tensor, which pixels a drawing call
  covers, and the dilation and blur filters;
- time and threads: the reader is driven by a sequence of `Tick`s. The
  control loop is driven by a sequence of rounds, each a batch of
  completions in any order.

Arithmetic is exact: `real` stands for the source's floats, and `int` is
unbounded.

## Model

| member | source | states |
|---|---|---|
| Skeleton.LoadModel | modules/skeletor-py/model_loader.py:17-23 | a model type is accepted exactly when it is thunder, lightning or multipose_lightning; the input size is 192 exactly for lightning and 256 otherwise |
| Skeleton.KeypointDictIsBijection | modules/skeletor-py/config.py:20-38 | the keypoint table maps the 17 joint names one-to-one onto 0..16, and the name list inverts it |
| Skeleton.NamedIndicesAgree | modules/skeletor-py/config.py:26-37 | the shoulder, elbow, wrist, hip, knee and ankle indices the drawing code uses are the table's entries |
| Skeleton.SkeletonLinesShape | modules/skeletor-py/config.py:41-54 | exactly 12 edges, all endpoints in 5..16, no self-loop, no edge repeated in either direction, no head keypoint as endpoint |
| Skeleton.SkeletonLinesCoverLimbsAndTorso | modules/skeletor-py/config.py:42-53 | every elbow, wrist, knee and ankle is an endpoint, and the four torso sides are edges |
| Paths.SplitExt | modules/skeletor-py/video_processor.py:199 | root and extension concatenate back to the path; the extension is empty or a dot followed by neither dot nor separator; it is non-empty exactly when the last component has a dot preceded there by something other than dots, so the cut is at the last dot of the last component |
| Paths.OutputName | modules/skeletor-py/video_processor.py:197-200 | the result ends in .webm in lower case; a path already ending in .webm (any case) is kept; otherwise it is the splitext root plus .webm, a prefix of the path with no separator after the cut |
| Paths.OutputNameReplacesExtension | modules/skeletor-py/video_processor.py:197-200 | a.mp4 becomes a.webm: the extension is replaced, not appended to |
| Paths.OutputNameKeepsDirectoryDots | modules/skeletor-py/video_processor.py:197-200 | a.b/c becomes a.b/c.webm: a dot in a directory is not an extension |
| Paths.OutputNameKeepsLeadingDot | modules/skeletor-py/video_processor.py:197-200 | .abc becomes .abc.webm: a leading dot is not an extension |
| Paths.OutputNameIdempotent | modules/skeletor-py/main.py:551-554 | rewriting an already rewritten name changes nothing |
| Sizing.TargetDims | modules/skeletor-py/video_processor.py:168-181 | without a downscale the source size is kept; with one the width is the requested one and the height is even, within one of the exact scaled height, and at most the source height; main.py:526-537 computes the same |
| Sizing.DefaultWorkers | modules/skeletor-py/video_processor.py:143-144 | one fewer than the CPUs when there are two or more, exactly 1 otherwise; for main.py:497-499, either 16 or twice the CPUs and at most both, so their minimum |
| Sizing.DraftReaderBound | modules/skeletor-py/main.py:616 | the draft reader's threshold is 32 exactly for videos of at most 100 frames, and otherwise half the frame count (floored) capped at 64, which lies in 50..64 |
| Sizing.ExtraSentinels | modules/skeletor-py/video_processor.py:119 | main.py:476 puts exactly 5 extra end markers; video_processor.py puts 5 or two per worker, and at least both, so their maximum |
| Sizing.PlanRun | modules/skeletor-py/video_processor.py:143-194 | an unopenable capture stops set-up; an opened one is rejected exactly when it has no frames or no frame rate; queue capacity is four per worker and equals the reader threshold; in-flight limit is two per worker; the target never exceeds the source; main.py (496-548, 616) never rejects an opened capture and uses a 16-slot queue with a reader threshold above it |
| PoseDetector.ComputeLetterbox | modules/skeletor-py/pose_detector.py:39-51 | scale is positive and at most both S/h and S/w; the resized extents are the truncated scaled sizes and fit the canvas; each pad is the floor of half the spare room, so the image is centred; the longer side fills the canvas with no pad |
| PoseDetector.DenormaliseInvertsForward | modules/skeletor-py/pose_detector.py:74-81 | de-normalisation exactly undoes the letterbox map built from the same scale and pad |
| PoseDetector.PixelRoundTrip | modules/skeletor-py/pose_detector.py:109-123 | a pixel inside the frame, letterboxed, normalised, mapped back and clamped, is unchanged |
| PoseDetector.MapCoord | modules/skeletor-py/pose_detector.py:83-85 | every mapped coordinate lies in 0..extent-1: a de-normalised position inside the frame is kept, one below 0 goes to 0 and one above extent-1 goes to extent-1 |
| PoseDetector.MaxScore | modules/skeletor-py/pose_detector.py:70 | the result is at least every score and equal to one of them |
| PoseDetector.SinglePose | modules/skeletor-py/pose_detector.py:68-91 | at most one person, present exactly when some keypoint score beats the threshold strictly; all 17 keypoints mapped, scores kept |
| PoseDetector.PersonFromRow | modules/skeletor-py/pose_detector.py:103-136 | 17 keypoints, every score kept; coordinates mapped where the keypoint's score beats the threshold, (0, 0) where it does not |
| PoseDetector.MultiPose | modules/skeletor-py/pose_detector.py:94-102 | fails exactly when some row is too short to reshape; otherwise every row whose bbox score (0.0 when absent) beats the threshold yields its person, and nothing else is returned |
| PoseDetector.MultiPoseIsFilterMap | modules/skeletor-py/pose_detector.py:94-102 | the persons returned are exactly one per row that beats the threshold, in row order, each built from its row as PersonFromRow states |
| PoseDetector.DetectPose | modules/skeletor-py/pose_detector.py:20-145 | an invalid frame gives None; a result means a valid frame and a detector output; persons have 17 keypoints clamped to the frame; a one-row output gives at most one person, an empty output none; multi-pose zeroes low-score coordinates |
| Masking.CircledJointsFacts | modules/skeletor-py/masking.py:82-101 | the circled joints are the 13 keypoints other than the shoulders and hips |
| Masking.JointRadius | modules/skeletor-py/masking.py:24-25 | radius and thickness are at least 1, and equal to the truncated 4/5 of a non-negative radius when that is positive |
| Masking.BonePass | modules/skeletor-py/masking.py:58-79 | a line for an edge exactly when both endpoints beat the threshold, between the endpoints' integer points; the point cache stays faithful; no edge drawn twice |
| Masking.JointPass | modules/skeletor-py/masking.py:100-107 | a disk for a listed joint exactly when it beats the threshold, centred at its integer point whether or not it came from the cache |
| Masking.PersonTorso | modules/skeletor-py/masking.py:30-54 | the torso quadrilateral LS, RS, RH, LH is drawn, first, exactly when all four corners beat the threshold |
| Masking.PersonBones | modules/skeletor-py/masking.py:56-79 | per person, each skeleton edge is drawn at most once, and exactly when both endpoints beat the threshold |
| Masking.PersonJoints | modules/skeletor-py/masking.py:81-107 | per person, a disk for keypoint k exactly when k is a head or limb joint beating the threshold; never a shoulder or hip |
| Masking.PostFor | modules/skeletor-py/masking.py:109-121 | dilate exactly when iterations are positive; blur exactly when the kernel exceeds 1, with an odd kernel of k or k+1 |
| Masking.CreateMask | modules/skeletor-py/masking.py:17-28 | no detection list gives no drawing and no post-processing; otherwise the draws are exactly the union of every person's draws, and post-processing is decided once |
| Masking.PaintIsUnion | modules/skeletor-py/masking.py:28-107 | after the drawing calls a pixel is 255 exactly when some primitive covers it, whatever the order, and keeps its value otherwise |
| Masking.PaintedMaskIsBinaryUnion | modules/skeletor-py/masking.py:18-107 | before post-processing the mask takes only the values 0 and 255, with 255 exactly on the union of all primitives |
| Masking.RenderMask | modules/skeletor-py/masking.py:109-123 | the final mask is a byte plane of the frame's size, and without post-processing it is the painted union |
| Masking.BlendChannel | modules/skeletor-py/masking.py:131-145 | the blended channel lies between the source colour and 255; a full mask keeps the colour, an empty one gives white |
| Masking.ApplyMask | modules/skeletor-py/masking.py:126-155 | four channels of the frame's size; alpha is the mask unmodified; each colour channel is the blend of frame and mask |
| Worker.ProcessFrame | modules/skeletor-py/video_processor.py:19-84 | the result always carries the task's index and four channels; a missing frame or a raising step gives the target-sized blank; otherwise alpha is the mask and colour lies between the source and white, kept where the mask is full; the worker at main.py:366-433 behaves the same |
| Worker.NoDetectionIsTransparentWhite | modules/skeletor-py/video_processor.py:52-65 | with no person detected the output is fully transparent white |
| Reader.Step | modules/skeletor-py/video_processor.py:94-115 | one reader iteration keeps the queue's shape: tasks 0..n-1 in order, then at most one end marker; a lossless reader stays lossless when its threshold is at most the capacity |
| Reader.Loop | modules/skeletor-py/video_processor.py:94-116 | the same invariant over any sequence of observations, with earlier tasks never changed |
| Reader.Epilogue | modules/skeletor-py/video_processor.py:118-123 | the extra end markers are appended after everything already queued, as many as fit |
| Reader.EffectiveBound | modules/skeletor-py/video_processor.py:253-262 | the reader threshold capped at the queue's capacity, unchanged when already within it |
| Reader.RunReader | modules/skeletor-py/video_processor.py:88-125 | task i carries source frame i with index i for every i below the returned count, followed only by end markers; the threshold is capped at the capacity, which leaves a video_processor.py plan unchanged, so a main.py plan runs the corrected reader (see Reader.DraftReaderLosesFrame) |
| Reader.ReaderKeepsEveryFrame | modules/skeletor-py/video_processor.py:94-115 | with the capped threshold no frame is lost, for every interleaving of the consumers |
| Reader.ModularBoundUnchanged | modules/skeletor-py/video_processor.py:253-262 | video_processor.py already passes the capacity as the threshold |
| Reader.DraftReaderLosesFrame | modules/skeletor-py/main.py:443-471 | with the threshold above the capacity, a full queue that does not drain in time loses frame 0, and frame 1 is enqueued as index 0 |
| Reader.DraftPlansExposeLoss | modules/skeletor-py/main.py:616 | every plan the draft builds has its threshold above its capacity |
| Reassembly.Dispatch | modules/skeletor-py/video_processor.py:284-309 | a task is submitted only before the end marker and below the in-flight limit; the pending count grows by submissions only and stays within the limit; the end is seen exactly on an end marker or an empty queue the reader will not refill |
| Reassembly.Lookup | modules/skeletor-py/video_processor.py:312-325 | a key has a stored image exactly when some completion carries it, and the image is that completion's (blank for a raised one) |
| Reassembly.LookupAppend | modules/skeletor-py/main.py:682-697 | later completions overwrite earlier ones under the same key |
| Reassembly.CollectAll | modules/skeletor-py/video_processor.py:311-325 | the results gain exactly the batch's keys with their last images; cursor and output unchanged; processed grows by the counted completions |
| Reassembly.Shown | modules/skeletor-py/main.py:710-718 | the draft writes a blank for a result whose height or width is off, and the result itself otherwise |
| Reassembly.DrainModular | modules/skeletor-py/video_processor.py:327-363 | the cursor only advances, over present keys; earlier output is kept; a write fails only on a well-shaped present result the sink refuses, and then the results are cleared, the run stops and the cursor stays on that index; an unbounded sink never fails; otherwise the cursor is not a key and exactly the passed keys are removed |
| Reassembly.DrainModularWritesSegment | modules/skeletor-py/video_processor.py:327-363 | for any sink, the output gains exactly the well-shaped results of the indices the cursor passed, in index order; when the pipe breaks, every well-shaped result before the failing index has already been written |
| Reassembly.DrainModularWrites | modules/skeletor-py/video_processor.py:329-339 | every frame written has exactly the target shape, is the stored result of an index the cursor passed, and indices increase |
| Reassembly.DrainModularComplete | modules/skeletor-py/video_processor.py:327-363 | with no write error and well-shaped results, the output gains exactly the results for cursor..new cursor, in order |
| Reassembly.PopRun | modules/skeletor-py/main.py:700-705 | the draft pops the whole run of consecutive keys; afterwards the cursor is the first missing index and only the run is removed |
| Reassembly.WriteBatch | modules/skeletor-py/main.py:707-728 | what reaches the encoder is a prefix of the batch, all of it exactly when no write failed |
| Reassembly.DrainDraft | modules/skeletor-py/main.py:699-728 | the draft's output gains a prefix of the popped run, all of it exactly when no write failed; the popped results are gone either way |
| Reassembly.DrainDraftWrites | modules/skeletor-py/main.py:699-728 | every frame the draft writes has the target height and width, stands for an index the cursor passed, and indices increase |
| Reassembly.RoundKeepsOrdered | modules/skeletor-py/video_processor.py:311-363 | a collect-then-drain pass keeps the output strictly increasing, behind the cursor and correctly shaped |
| Reassembly.OutputInIndexOrder | modules/skeletor-py/video_processor.py:282-381 | for any completion order, batching and write failure, frames reach the encoder in strictly increasing index order, each correctly shaped |
| Reassembly.RunDelivers | modules/skeletor-py/video_processor.py:282-371 | with fresh keys and no write error, the written frames are exactly indices 0..cursor-1, and the pending results are exactly the collected ones beyond the cursor |
| Reassembly.InOrderDelivery | modules/skeletor-py/video_processor.py:282-381 | when each of 0..N-1 completes exactly once in any order, no write fails and (video_processor.py) results are well-shaped, the encoder receives exactly 0..N-1 in order, frame k is index k's result, and nothing stays pending; main.py:646-728 delivers the same, with wrong-sized results blanked |

## Left out

- Threads, timing and queue timeouts: the reader sees its environment as
  `Tick`s and the control loop as rounds of completions. Liveness is not
  modelled, including whether the loop ever exits and the reader join.
- TensorFlow model loading, warm-up and inference, and the GPU set-up. The
  detector's output tensor is an input (`None` when inference raises).
- OpenCV resize, `fillPoly`, `line`, `circle`, `dilate`, `GaussianBlur` and
  `merge`. Each is a function parameter, assumed to keep shapes and the
  byte range.
- The ffmpeg subprocess: command line, start-up failures, `communicate`
  and the return code. A broken pipe is modelled as a `Sink` that fails
  after a number of writes.
- Cancelling futures and emptying the queue after a write error. The model
  stops the run instead.
- Logging, progress bars, statistics and argument parsing.
- Float rounding: the scale, `int(radius * 0.8)`, the scaled height and the
  per-pixel blend use exact arithmetic, so IEEE rounding may differ at exact
  boundaries.
- `process_frame`'s fallback index 0 for a `frame_data` that is not a
  tuple. Every task the reader builds is a 3-tuple. A `KeyError` from a
  missing parameter, raised inside the handler itself, is also left out.
- `os.cpu_count()` returning `None`: the CPU count is a natural number.
- Paths.OutputName: lower-casing is modelled for ASCII letters only.
- Frames that are not three-dimensional arrays: a task's frame is `None` or
  a three-dimensional image.
- A worker count of zero or below: `ThreadPoolExecutor` rejects it.
- Reassembly.Dispatch: when an empty queue means the end (reader finished
  in video_processor.py; more than 20 empty polls after `total_frames`
  reads in main.py) is an input flag, not derived.
- Reader.Loop: the blocking `put` of the end marker is assumed to succeed.
- PoseDetector.DetectPose: its contract states clamping, shape and the
  single- and multi-pose bounds. The exact persons are stated by
  PoseDetector.SinglePose and PoseDetector.MultiPose.
- Masking.RenderMask: after dilation or blur the mask is only stated to stay
  a byte plane of the frame's size, because the filters are OpenCV's.

## Findings

| source | as written | input that shows it | evidently intended | confidence | as-written member | corrected member |
|---|---|---|---|---|---|---|
| modules/skeletor-py/main.py:616 | The reader threshold is 32, or `min(64, total_frames // 2)`, while the frame queue holds 16 (main.py:37). The reader reads a frame while the queue is full, the one-second `put` times out, and the frame is dropped. The next frame is then enqueued under the dropped frame's index. | A queue holding 16 tasks, no worker taking one within the second, then frames f0, f1: task 0 carries f1 and f0 is lost. | The reader waits while the queue is full and never loses a frame, as video_processor.py does by passing the queue's capacity (video_processor.py:253-262). | medium, not executed | Reader.DraftReaderLosesFrame | Reader.ReaderKeepsEveryFrame |

=== FILE: basics.dfy ===
/** Small shared vocabulary: optional values, the two revisions of the
    pipeline, Python-style integer conversion and clamping. */
module Basics {

  datatype Option<+T> = None | Some(value: T)

  /** The repository carries two revisions of the same pipeline:
      `Modular` is modules/skeletor-py/video_processor.py together with
      pose_detector.py and masking.py; `Draft` is the earlier single-file
      modules/skeletor-py/main.py. Where they behave differently the model
      takes the revision as a parameter. */
  datatype Revision = Modular | Draft

  /** Python's `int(x)` on a float: truncation toward zero. */
  function Trunc(x: real): (r: int)
    ensures x >= 0.0 ==> r as real <= x < r as real + 1.0
    ensures x < 0.0 ==> r as real - 1.0 < x <= r as real
  {
    if x >= 0.0 then x.Floor else -((-x).Floor)
  }

  function MinReal(a: real, b: real): real { if a <= b then a else b }

  function MaxInt(a: int, b: int): int { if a >= b then a else b }

  function MinInt(a: int, b: int): int { if a <= b then a else b }

  /** numpy's `clip(v, lo, hi)`: `min(max(v, lo), hi)`. */
  function Clip(v: real, lo: real, hi: real): (r: real)
    requires lo <= hi
    ensures lo <= r <= hi
    ensures lo <= v <= hi ==> r == v
    ensures v < lo ==> r == lo
    ensures v > hi ==> r == hi
  {
    if v < lo then lo else if v > hi then hi else v
  }
}

=== FILE: images.dfy ===
/** Pixel arrays as the pipeline sees them: an explicit numpy shape
    `(height, width, channels)` and the rows of pixels, each pixel a
    sequence of channel values. */
module Images {

  datatype Image = Image(height: nat, width: nat, channels: nat, pixels: seq<seq<seq<int>>>)

  /** The pixel data really has the recorded shape. */
  predicate WellFormed(img: Image)
  {
    && |img.pixels| == img.height
    && (forall r :: 0 <= r < img.height ==> |img.pixels[r]| == img.width)
    && (forall r, c :: 0 <= r < img.height && 0 <= c < img.width ==> |img.pixels[r][c]| == img.channels)
  }

  /** `img.shape == (h, w, c)`. */
  predicate HasShape(img: Image, h: nat, w: nat, c: nat)
  {
    img.height == h && img.width == w && img.channels == c
  }

  /** A single-channel plane of `h` rows and `w` columns (a mask). */
  predicate IsPlane(m: seq<seq<int>>, h: nat, w: nat)
  {
    |m| == h && forall r :: 0 <= r < h ==> |m[r]| == w
  }

  /** Every value of the plane lies in the uint8 range. */
  predicate BytePlane(m: seq<seq<int>>)
  {
    forall r, c :: 0 <= r < |m| && 0 <= c < |m[r]| ==> 0 <= m[r][c] <= 255
  }

  function ZeroPlane(h: nat, w: nat): (m: seq<seq<int>>)
    ensures IsPlane(m, h, w)
    ensures forall r, c :: 0 <= r < h && 0 <= c < w ==> m[r][c] == 0
  {
    seq(h, _ => seq(w, _ => 0))
  }

  /** `np.zeros((h, w, 4), dtype=np.uint8)`: the fully transparent frame
      used in place of any frame that could not be produced. */
  function Blank(h: nat, w: nat): (img: Image)
    ensures WellFormed(img) && HasShape(img, h, w, 4)
    ensures forall r, c, k :: 0 <= r < h && 0 <= c < w && 0 <= k < 4 ==> img.pixels[r][c][k] == 0
  {
    Image(h, w, 4, seq(h, _ => seq(w, _ => seq(4, _ => 0))))
  }
}

=== FILE: masking.dfy ===
/** `create_mask` and `apply_mask` (modules/skeletor-py/masking.py,
    duplicated in main.py). The mask is modelled as a draw plan: the
    primitives handed to OpenCV (torso polygon, bone lines, joint disks) and
    the post-processing to apply. Which pixels a primitive covers, and what
    dilation and blur do to a plane, are OpenCV's business and enter as
    function parameters; the painting order and the union semantics are
    modelled. */
module Masking {
  import opened Basics
  import opened Skeleton
  import opened Images
  import opened PoseDetector

  /** An OpenCV point: column first, then row. */
  datatype Point = Point(x: int, y: int)

  /** One drawing call. Every primitive is drawn with value 255 and carries
      the keypoints it was built from. */
  datatype Primitive =
    | Torso(vertices: seq<Point>)                          // cv2.fillPoly
    | Bone(edge: Edge, a: Point, b: Point, thickness: int) // cv2.line
    | Joint(joint: nat, center: Point, radius: int)        // cv2.circle, filled

  const DrawValue: int := 255

  /** Dilation (3x3 kernel, given iterations) and Gaussian blur (given odd
      kernel), each present only when it is applied. */
  datatype PostProcess = PostProcess(dilate: Option<nat>, blur: Option<int>)

  datatype MaskPlan = MaskPlan(height: nat, width: nat, draws: seq<Primitive>, post: PostProcess)

  /** Head keypoints then limb joints, the order in which disks are drawn;
      shoulders and hips are not in it. */
  const CircledJoints: seq<nat> := [
    0, 1, 2, 3, 4, // nose, eyes, ears
    LeftElbow, RightElbow, LeftWrist, RightWrist,
    LeftKnee, RightKnee, LeftAnkle, RightAnkle
  ]

  lemma CircledJointsFacts()
    ensures |CircledJoints| == 13
    ensures forall k: nat :: k in CircledJoints <==> k < KeypointCount && k !in {LeftShoulder, RightShoulder, LeftHip, RightHip}
  {
  }

  /** `max(1, int(radius * 0.8))`, used both as disk radius and as line
      thickness. */
  function JointRadius(radius: int): (r: int)
    ensures r >= 1
    ensures radius >= 0 ==> r == MaxInt(1, (4 * radius) / 5)
    ensures radius <= 1 ==> r == 1
  {
    MaxInt(1, Trunc(radius as real * 0.8))
  }

  /** A keypoint as an integer OpenCV point, `(int(x), int(y))`. */
  function Pt(kp: Keypoint): Point
  {
    Point(Trunc(kp.x), Trunc(kp.y))
  }

  predicate Visible(p: Person, k: nat, threshold: real)
    requires k < |p|
  {
    p[k].score > threshold
  }

  predicate TorsoVisible(p: Person, threshold: real)
    requires |p| == KeypointCount
  {
    Visible(p, LeftShoulder, threshold) && Visible(p, RightShoulder, threshold)
    && Visible(p, LeftHip, threshold) && Visible(p, RightHip, threshold)
  }

  predicate EdgeVisible(p: Person, e: Edge, threshold: real)
    requires e.a < |p| && e.b < |p|
  {
    Visible(p, e.a, threshold) && Visible(p, e.b, threshold)
  }

  /** The bone drawn for edge `e`: from endpoint `a` to endpoint `b`. */
  function BoneFor(p: Person, e: Edge, thickness: int): Primitive
    requires e.a < |p| && e.b < |p|
  {
    Bone(e, Pt(p[e.a]), Pt(p[e.b]), thickness)
  }

  /** The point cache of `create_mask` only ever holds a keypoint's own
      integer point. */
  predicate CacheFaithful(p: Person, cache: map<nat, Point>)
  {
    forall k :: k in cache ==> k < |p| && cache[k] == Pt(p[k])
  }

  predicate EdgesWithin(edges: seq<Edge>, n: nat)
  {
    forall e :: e in edges ==> e.a < n && e.b < n
  }

  /** The edge loop of `create_mask`: one line per edge whose two endpoints
      both beat the threshold, filling the point cache on the way. */
  function BonePass(p: Person, threshold: real, thickness: int, edges: seq<Edge>, cache: map<nat, Point>)
    : (r: (seq<Primitive>, map<nat, Point>))
    requires EdgesWithin(edges, |p|) && CacheFaithful(p, cache)
    ensures CacheFaithful(p, r.1)
    ensures |r.0| <= |edges|
    ensures forall q :: q in r.0 ==>
      q.Bone? && q.edge in edges && EdgeVisible(p, q.edge, threshold) && q == BoneFor(p, q.edge, thickness)
    ensures forall e :: e in edges && EdgeVisible(p, e, threshold) ==> BoneFor(p, e, thickness) in r.0
    ensures (forall i, j :: 0 <= i < j < |edges| ==> edges[i] != edges[j]) ==>
      forall i, j :: 0 <= i < j < |r.0| ==> r.0[i].edge != r.0[j].edge
  {
    if |edges| == 0 then ([], cache)
    else
      var e := edges[0];
      assert forall i :: 1 <= i < |edges| ==> edges[1..][i - 1] == edges[i];
      if EdgeVisible(p, e, threshold) then
        var c1 := if e.a in cache then cache else cache[e.a := Pt(p[e.a])];
        var c2 := if e.b in c1 then c1 else c1[e.b := Pt(p[e.b])];
        var rest := BonePass(p, threshold, thickness, edges[1..], c2);
        var line := Bone(e, c2[e.a], c2[e.b], thickness);
        assert line == BoneFor(p, e, thickness);
        BoneCons(p, threshold, thickness, edges, rest.0);
        ([line] + rest.0, rest.1)
      else
        BonePass(p, threshold, thickness, edges[1..], cache)
  }

  /** Drawing the first edge's bone in front of the bones of the remaining
      edges keeps the edge loop's promises. */
  lemma BoneCons(p: Person, threshold: real, thickness: int, edges: seq<Edge>, rest: seq<Primitive>)
    requires |edges| > 0 && EdgesWithin(edges, |p|) && EdgeVisible(p, edges[0], threshold)
    requires |rest| <= |edges| - 1
    requires forall q :: q in rest ==>
      q.Bone? && q.edge in edges[1..] && EdgeVisible(p, q.edge, threshold) && q == BoneFor(p, q.edge, thickness)
    requires forall e :: e in edges[1..] && EdgeVisible(p, e, threshold) ==> BoneFor(p, e, thickness) in rest
    requires (forall i, j :: 0 <= i < j < |edges[1..]| ==> edges[1..][i] != edges[1..][j]) ==>
      forall i, j :: 0 <= i < j < |rest| ==> rest[i].edge != rest[j].edge
    ensures var r := [BoneFor(p, edges[0], thickness)] + rest;
      && |r| <= |edges|
      && (forall q :: q in r ==>
            q.Bone? && q.edge in edges && EdgeVisible(p, q.edge, threshold) && q == BoneFor(p, q.edge, thickness))
      && (forall e :: e in edges && EdgeVisible(p, e, threshold) ==> BoneFor(p, e, thickness) in r)
      && ((forall i, j :: 0 <= i < j < |edges| ==> edges[i] != edges[j]) ==>
            forall i, j :: 0 <= i < j < |r| ==> r[i].edge != r[j].edge)
  {
    var r := [BoneFor(p, edges[0], thickness)] + rest;
    assert forall i :: 1 <= i < |edges| ==> edges[1..][i - 1] == edges[i];
    if forall i, j :: 0 <= i < j < |edges| ==> edges[i] != edges[j] {
      assert forall i, j :: 0 <= i < j < |edges[1..]| ==> edges[1..][i] != edges[1..][j];
      forall i, j | 0 <= i < j < |r|
        ensures r[i].edge != r[j].edge
      {
        if i == 0 {
          assert r[j] in rest;
          assert edges[0] !in edges[1..];
        } else {
          assert r[i] == rest[i - 1] && r[j] == rest[j - 1];
        }
      }
    }
  }

  /** The joint loop of `create_mask`: a disk for every listed joint that
      beats the threshold, centred at the cached point when there is one
      and at the freshly converted point otherwise. */
  function JointPass(p: Person, threshold: real, radius: int, joints: seq<nat>, cache: map<nat, Point>): (r: seq<Primitive>)
    requires forall i :: 0 <= i < |joints| ==> joints[i] < |p|
    requires CacheFaithful(p, cache)
    ensures forall q :: q in r ==>
      q.Joint? && q.joint in joints && Visible(p, q.joint, threshold) && q == Joint(q.joint, Pt(p[q.joint]), radius)
    ensures forall k :: k in joints && Visible(p, k, threshold) ==> Joint(k, Pt(p[k]), radius) in r
  {
    if |joints| == 0 then []
    else
      var k := joints[0];
      assert forall i :: 1 <= i < |joints| ==> joints[1..][i - 1] == joints[i];
      var here :=
        if k in cache && Visible(p, k, threshold) then [Joint(k, cache[k], radius)]
        else if Visible(p, k, threshold) then [Joint(k, Pt(p[k]), radius)]
        else [];
      here + JointPass(p, threshold, radius, joints[1..], cache)
  }

  /** The torso polygon: left shoulder, right shoulder, right hip, left hip. */
  function TorsoQuad(p: Person): seq<Point>
    requires |p| == KeypointCount
  {
    [Pt(p[LeftShoulder]), Pt(p[RightShoulder]), Pt(p[RightHip]), Pt(p[LeftHip])]
  }

  function TorsoDraws(p: Person, threshold: real): seq<Primitive>
    requires |p| == KeypointCount
  {
    if TorsoVisible(p, threshold) then [Torso(TorsoQuad(p))] else []
  }

  lemma SkeletonLinesUsable()
    ensures EdgesWithin(SkeletonLines, KeypointCount)
    ensures forall i, j :: 0 <= i < j < |SkeletonLines| ==> SkeletonLines[i] != SkeletonLines[j]
    ensures forall i :: 0 <= i < |CircledJoints| ==> CircledJoints[i] < KeypointCount
  {
    SkeletonLinesShape();
    CircledJointsFacts();
  }

  /** The bone lines of one person and the point cache they leave behind. */
  function BoneDraws(p: Person, threshold: real, radius: int): (seq<Primitive>, map<nat, Point>)
    requires |p| == KeypointCount
  {
    SkeletonLinesUsable();
    BonePass(p, threshold, JointRadius(radius), SkeletonLines, map[])
  }

  /** The joint disks of one person, reusing the bones' point cache. */
  function JointDraws(p: Person, threshold: real, radius: int): seq<Primitive>
    requires |p| == KeypointCount
  {
    SkeletonLinesUsable();
    JointPass(p, threshold, JointRadius(radius), CircledJoints, BoneDraws(p, threshold, radius).1)
  }

  /** Everything drawn for one person, in drawing order: torso, bones,
      joints. */
  function PersonDraws(p: Person, threshold: real, radius: int): seq<Primitive>
    requires |p| == KeypointCount
  {
    TorsoDraws(p, threshold) + BoneDraws(p, threshold, radius).0 + JointDraws(p, threshold, radius)
  }

  /** The torso quadrilateral is drawn, first, exactly when all four of
      its corners beat the threshold. */
  lemma PersonTorso(p: Person, threshold: real, radius: int)
    requires |p| == KeypointCount
    ensures var r := PersonDraws(p, threshold, radius);
      && (TorsoVisible(p, threshold) <==> exists q :: q in r && q.Torso?)
      && (TorsoVisible(p, threshold) ==> r[0] == Torso(TorsoQuad(p)))
      && (forall q :: q in r && q.Torso? ==> q == Torso(TorsoQuad(p)))
  {
    SkeletonLinesUsable();
    var torso := TorsoDraws(p, threshold);
    var bones := BoneDraws(p, threshold, radius).0;
    var joints := JointDraws(p, threshold, radius);
    TorsoOfConcat(torso, bones, joints);
    if TorsoVisible(p, threshold) {
      assert (torso + bones + joints)[0] == Torso(TorsoQuad(p));
    }
  }

  lemma TorsoOfConcat(torso: seq<Primitive>, bones: seq<Primitive>, joints: seq<Primitive>)
    requires forall q :: q in bones ==> q.Bone?
    requires forall q :: q in joints ==> q.Joint?
    ensures forall q :: q in torso + bones + joints && q.Torso? <==> q in torso && q.Torso?
  {
  }

  /** Each skeleton edge is drawn at most once, as a line between its two
      endpoints' points, and it is drawn exactly when both endpoints beat
      the threshold. */
  lemma PersonBones(p: Person, threshold: real, radius: int)
    requires |p| == KeypointCount
    ensures EdgesWithin(SkeletonLines, KeypointCount)
    ensures var r := PersonDraws(p, threshold, radius);
      && (forall e :: e in SkeletonLines ==>
           (EdgeVisible(p, e, threshold) <==> exists q :: q in r && q.Bone? && q.edge == e))
      && (forall q :: q in r && q.Bone? ==> q == BoneFor(p, q.edge, JointRadius(radius)))
      && (forall i, j :: 0 <= i < j < |r| && r[i].Bone? && r[j].Bone? ==> r[i].edge != r[j].edge)
  {
    SkeletonLinesUsable();
    var t := JointRadius(radius);
    var torso := TorsoDraws(p, threshold);
    var pass := BonePass(p, threshold, t, SkeletonLines, map[]);
    var joints := JointPass(p, threshold, t, CircledJoints, pass.1);
    assert PersonDraws(p, threshold, radius) == torso + pass.0 + joints;
    BonesOfConcat(p, threshold, t, SkeletonLines, torso, pass.0, joints);
  }

  lemma {:induction false} BonesOfConcat(p: Person, threshold: real, t: int, edges: seq<Edge>,
                                         torso: seq<Primitive>, bones: seq<Primitive>, joints: seq<Primitive>)
    requires EdgesWithin(edges, |p|)
    requires forall q :: q in torso ==> q.Torso?
    requires forall q :: q in joints ==> q.Joint?
    requires forall q :: q in bones ==>
      q.Bone? && q.edge in edges && EdgeVisible(p, q.edge, threshold) && q == BoneFor(p, q.edge, t)
    requires forall e :: e in edges && EdgeVisible(p, e, threshold) ==> BoneFor(p, e, t) in bones
    requires forall i, j :: 0 <= i < j < |bones| ==> bones[i].edge != bones[j].edge
    ensures var r := torso + bones + joints;
      && (forall e :: e in edges ==>
           (EdgeVisible(p, e, threshold) <==> exists q :: q in r && q.Bone? && q.edge == e))
      && (forall q :: q in r && q.Bone? ==> q == BoneFor(p, q.edge, t))
      && (forall i, j :: 0 <= i < j < |r| && r[i].Bone? && r[j].Bone? ==> r[i].edge != r[j].edge)
  {
    var r := torso + bones + joints;
    forall q | q in r && q.Bone?
      ensures q in bones
    {
      assert q in torso || q in bones || q in joints;
    }
    forall k | 0 <= k < |torso|
      ensures !r[k].Bone?
    {
      assert r[k] == torso[k] && torso[k] in torso;
    }
    forall k | |torso| + |bones| <= k < |r|
      ensures !r[k].Bone?
    {
      assert r[k] == joints[k - |torso| - |bones|] && joints[k - |torso| - |bones|] in joints;
    }
    forall i, j | 0 <= i < j < |r| && r[i].Bone? && r[j].Bone?
      ensures r[i].edge != r[j].edge
    {
      assert r[i] == bones[i - |torso|] && r[j] == bones[j - |torso|];
    }
    forall e | e in edges && EdgeVisible(p, e, threshold)
      ensures exists q :: q in r && q.Bone? && q.edge == e
    {
      assert BoneFor(p, e, t) in r;
    }
  }

  /** A disk is drawn for a keypoint exactly when it is a head or limb
      joint (never a shoulder or hip) that beats the threshold, centred at
      that keypoint's point. */
  lemma PersonJoints(p: Person, threshold: real, radius: int)
    requires |p| == KeypointCount
    ensures var r := PersonDraws(p, threshold, radius);
      && (forall k: nat :: k < KeypointCount ==>
           ((k in CircledJoints && Visible(p, k, threshold)) <==> exists q :: q in r && q.Joint? && q.joint == k))
      && (forall q :: q in r && q.Joint? ==>
           q.joint < KeypointCount && q.joint !in {LeftShoulder, RightShoulder, LeftHip, RightHip}
           && q.center == Pt(p[q.joint]) && q.radius == JointRadius(radius))
  {
    SkeletonLinesUsable();
    CircledJointsFacts();
    var t := JointRadius(radius);
    var torso := TorsoDraws(p, threshold);
    var pass := BonePass(p, threshold, t, SkeletonLines, map[]);
    var joints := JointPass(p, threshold, t, CircledJoints, pass.1);
    assert PersonDraws(p, threshold, radius) == torso + pass.0 + joints;
    JointsOfConcat(p, threshold, t, CircledJoints, torso, pass.0, joints);
  }

  lemma JointsOfConcat(p: Person, threshold: real, rad: int, circled: seq<nat>,
                       torso: seq<Primitive>, bones: seq<Primitive>, joints: seq<Primitive>)
    requires forall k :: k in circled ==> k < |p|
    requires forall q :: q in torso ==> q.Torso?
    requires forall q :: q in bones ==> q.Bone?
    requires forall q :: q in joints ==>
      q.Joint? && q.joint in circled && Visible(p, q.joint, threshold) && q == Joint(q.joint, Pt(p[q.joint]), rad)
    requires forall k :: k in circled && Visible(p, k, threshold) ==> Joint(k, Pt(p[k]), rad) in joints
    ensures var r := torso + bones + joints;
      && (forall k: nat :: k < |p| ==>
           ((k in circled && Visible(p, k, threshold)) <==> exists q :: q in r && q.Joint? && q.joint == k))
      && (forall q :: q in r && q.Joint? ==> q.joint in circled && q.center == Pt(p[q.joint]) && q.radius == rad)
  {
    var r := torso + bones + joints;
    forall q | q in r && q.Joint?
      ensures q in joints
    {
      assert q in torso || q in bones || q in joints;
    }
    forall k: nat | k < |p| && k in circled && Visible(p, k, threshold)
      ensures exists q :: q in r && q.Joint? && q.joint == k
    {
      assert Joint(k, Pt(p[k]), rad) in r;
    }
  }

  /** The post-processing decisions: dilate exactly when iterations are
      positive; blur exactly when the kernel exceeds 1, with an even kernel
      bumped to the next odd size. */
  function PostFor(dilationIterations: int, blurKernelSize: int): (r: PostProcess)
    ensures r.dilate.Some? <==> dilationIterations > 0
    ensures r.dilate.Some? ==> r.dilate.value == dilationIterations
    ensures r.blur.Some? <==> blurKernelSize > 1
    ensures r.blur.Some? ==> r.blur.value % 2 == 1 && blurKernelSize <= r.blur.value <= blurKernelSize + 1
  {
    var dilate := if dilationIterations > 0 then Some(dilationIterations as nat) else None;
    var blur :=
      if blurKernelSize > 1 then Some(if blurKernelSize % 2 != 0 then blurKernelSize else blurKernelSize + 1)
      else None;
    PostProcess(dilate, blur)
  }

  function AllDraws(persons: seq<Person>, threshold: real, radius: int): (r: seq<Primitive>)
    requires forall j :: 0 <= j < |persons| ==> |persons[j]| == KeypointCount
    ensures forall j, q :: 0 <= j < |persons| && q in PersonDraws(persons[j], threshold, radius) ==> q in r
    ensures forall q :: q in r ==>
      exists j :: 0 <= j < |persons| && q in PersonDraws(persons[j], threshold, radius)
  {
    if |persons| == 0 then []
    else
      var rest := AllDraws(persons[1..], threshold, radius);
      assert forall j :: 1 <= j < |persons| ==> persons[1..][j - 1] == persons[j];
      PersonDraws(persons[0], threshold, radius) + rest
  }

  /** `create_mask` for an `h x w` frame. With no detection list at all it
      returns the zero mask straight away, without post-processing;
      otherwise every person contributes its primitives and the
      post-processing is decided once, after all persons. */
  function CreateMask(h: nat, w: nat, persons: Option<seq<Person>>, threshold: real,
                      radius: int, dilationIterations: int, blurKernelSize: int): (plan: MaskPlan)
    requires persons.Some? ==> forall j :: 0 <= j < |persons.value| ==> |persons.value[j]| == KeypointCount
    ensures plan.height == h && plan.width == w
    ensures persons.None? ==> plan.draws == [] && plan.post == PostProcess(None, None)
    ensures persons.Some? ==> plan.post == PostFor(dilationIterations, blurKernelSize)
    ensures persons.Some? ==> forall j, q :: 0 <= j < |persons.value| && q in PersonDraws(persons.value[j], threshold, radius) ==> q in plan.draws
    ensures persons.Some? ==> forall q :: q in plan.draws ==>
      exists j :: 0 <= j < |persons.value| && q in PersonDraws(persons.value[j], threshold, radius)
  {
    match persons
    case None => MaskPlan(h, w, [], PostProcess(None, None))
    case Some(ps) => MaskPlan(h, w, AllDraws(ps, threshold, radius), PostFor(dilationIterations, blurKernelSize))
  }

  /** What OpenCV does with pixels: which pixels a primitive covers, and the
      dilation and blur filters. */
  datatype Raster = Raster(
    covers: (Primitive, nat, nat) -> bool,
    dilate: (seq<seq<int>>, nat) -> seq<seq<int>>,
    blur: (seq<seq<int>>, int) -> seq<seq<int>>)

  /** The filters keep a byte plane's geometry and range. */
  ghost predicate FiltersBehave(raster: Raster)
  {
    && (forall m, n :: BytePlane(m) ==>
          (BytePlane(raster.dilate(m, n)) && |raster.dilate(m, n)| == |m|
           && forall r :: 0 <= r < |m| ==> |raster.dilate(m, n)[r]| == |m[r]|))
    && (forall m, k :: BytePlane(m) ==>
          (BytePlane(raster.blur(m, k)) && |raster.blur(m, k)| == |m|
           && forall r :: 0 <= r < |m| ==> |raster.blur(m, k)[r]| == |m[r]|))
  }

  lemma BlurKeepsPlane(raster: Raster, m: seq<seq<int>>, k: int)
    requires FiltersBehave(raster) && BytePlane(m)
    ensures BytePlane(raster.blur(m, k)) && |raster.blur(m, k)| == |m|
    ensures forall r :: 0 <= r < |m| ==> |raster.blur(m, k)[r]| == |m[r]|
  {
  }

  /** One drawing call: covered pixels take the draw value. */
  function Stamp(plane: seq<seq<int>>, q: Primitive, covers: (Primitive, nat, nat) -> bool): (r: seq<seq<int>>)
    ensures |r| == |plane| && forall i :: 0 <= i < |r| ==> |r[i]| == |plane[i]|
  {
    seq(|plane|, i requires 0 <= i < |plane| =>
      seq(|plane[i]|, j requires 0 <= j < |plane[i]| => if covers(q, i, j) then DrawValue else plane[i][j]))
  }

  /** The drawing calls applied in order. */
  function Paint(plane: seq<seq<int>>, draws: seq<Primitive>, covers: (Primitive, nat, nat) -> bool): (r: seq<seq<int>>)
    ensures |r| == |plane| && forall i :: 0 <= i < |r| ==> |r[i]| == |plane[i]|
    decreases |draws|
  {
    if |draws| == 0 then plane else Paint(Stamp(plane, draws[0], covers), draws[1..], covers)
  }

  /** Painting is a union: a pixel ends up 255 when any primitive covers it
      and keeps its old value otherwise, whatever the drawing order. */
  lemma {:induction false} PaintIsUnion(plane: seq<seq<int>>, draws: seq<Primitive>, covers: (Primitive, nat, nat) -> bool, i: nat, j: nat)
    requires i < |plane| && j < |plane[i]|
    ensures Paint(plane, draws, covers)[i][j] ==
      if exists q :: q in draws && covers(q, i, j) then DrawValue else plane[i][j]
    decreases |draws|
  {
    if |draws| > 0 {
      var stamped := Stamp(plane, draws[0], covers);
      PaintIsUnion(stamped, draws[1..], covers, i, j);
      assert forall q :: q in draws <==> q == draws[0] || q in draws[1..];
    }
  }

  /** Before post-processing the mask is two-valued: 255 exactly on the
      union of what the primitives of all persons cover, 0 elsewhere. */
  lemma PaintedMaskIsBinaryUnion(plan: MaskPlan, covers: (Primitive, nat, nat) -> bool, i: nat, j: nat)
    requires i < plan.height && j < plan.width
    ensures var m := Paint(ZeroPlane(plan.height, plan.width), plan.draws, covers);
      && (m[i][j] == 0 || m[i][j] == DrawValue)
      && (m[i][j] == DrawValue <==> exists q :: q in plan.draws && covers(q, i, j))
  {
    PaintIsUnion(ZeroPlane(plan.height, plan.width), plan.draws, covers, i, j);
  }

  /** The final mask: the painted plane, dilated and blurred when the plan
      says so. */
  function RenderMask(plan: MaskPlan, raster: Raster): (m: seq<seq<int>>)
    requires FiltersBehave(raster)
    ensures IsPlane(m, plan.height, plan.width) && BytePlane(m)
    ensures plan.post == PostProcess(None, None) ==> m == Paint(ZeroPlane(plan.height, plan.width), plan.draws, raster.covers)
  {
    var painted := Paint(ZeroPlane(plan.height, plan.width), plan.draws, raster.covers);
    forall i, j | 0 <= i < |painted| && 0 <= j < |painted[i]|
      ensures 0 <= painted[i][j] <= 255
    {
      PaintedMaskIsBinaryUnion(plan, raster.covers, i, j);
    }
    assert BytePlane(painted);
    var dilated := if plan.post.dilate.Some? then raster.dilate(painted, plan.post.dilate.value) else painted;
    assert IsPlane(dilated, plan.height, plan.width) && BytePlane(dilated);
    if plan.post.blur.Some? then
      BlurKeepsPlane(raster, dilated, plan.post.blur.value);
      raster.blur(dilated, plan.post.blur.value)
    else dilated
  }

  /** One colour channel of `apply_mask`: the source colour weighted by
      `m/255` plus white weighted by `1 - m/255`, clipped and truncated to a
      byte. The result lies between the source colour and white; a full mask
      keeps the colour, an empty mask gives white. */
  function BlendChannel(f: int, m: int): (r: int)
    requires 0 <= f <= 255 && 0 <= m <= 255
    ensures f <= r <= 255
    ensures m == 255 ==> r == f
    ensures m == 0 ==> r == 255
  {
    var a := m as real / 255.0;
    var v := f as real * a + 255.0 * (1.0 - a);
    BlendBounds(f, m, a, v);
    Trunc(Clip(v, 0.0, 255.0))
  }

  lemma BlendBounds(f: int, m: int, a: real, v: real)
    requires 0 <= f <= 255 && 0 <= m <= 255
    requires a == m as real / 255.0 && v == f as real * a + 255.0 * (1.0 - a)
    ensures f as real <= v <= 255.0
    ensures m == 255 ==> v == f as real
    ensures m == 0 ==> v == 255.0
  {
    assert 0.0 <= a <= 1.0;
    assert v == 255.0 - a * (255.0 - f as real);
    assert a * (255.0 - f as real) <= 255.0 - f as real;
  }

  /** A byte image: every channel value lies in 0..255. */
  predicate ByteImage(img: Image)
    requires WellFormed(img)
  {
    forall i, j, k :: 0 <= i < img.height && 0 <= j < img.width && 0 <= k < img.channels ==> 0 <= img.pixels[i][j][k] <= 255
  }

  /** `apply_mask`: a four-channel image of the frame's size whose first
      three channels are the blended colour and whose alpha is the mask
      unmodified. */
  function ApplyMask(frame: Image, mask: seq<seq<int>>): (out: Image)
    requires WellFormed(frame) && ByteImage(frame) && frame.channels >= 3
    requires IsPlane(mask, frame.height, frame.width) && BytePlane(mask)
    ensures WellFormed(out) && HasShape(out, frame.height, frame.width, 4)
    ensures forall i, j :: 0 <= i < frame.height && 0 <= j < frame.width ==>
      out.pixels[i][j][3] == mask[i][j]
      && forall k :: 0 <= k < 3 ==> out.pixels[i][j][k] == BlendChannel(frame.pixels[i][j][k], mask[i][j])
  {
    Image(frame.height, frame.width, 4,
      seq(frame.height, i requires 0 <= i < frame.height =>
        seq(frame.width, j requires 0 <= j < frame.width =>
          [BlendChannel(frame.pixels[i][j][0], mask[i][j]),
           BlendChannel(frame.pixels[i][j][1], mask[i][j]),
           BlendChannel(frame.pixels[i][j][2], mask[i][j]),
           mask[i][j]])))
  }
}

=== FILE: paths.dfy ===
/** The output-name rewrite of `process_video`: the encoder writes VP9 with
    alpha, so the output must be a `.webm` file. Built on the semantics of
    Python's `os.path.splitext` for POSIX paths and `str.lower`, restricted
    to ASCII letters. */
module Paths {

  const WebmSuffix: string := ".webm"

  function LowerChar(c: char): char
  {
    if 'A' <= c <= 'Z' then (c as int + 32) as char else c
  }

  /** `s.lower()` on ASCII letters. */
  function Lower(s: string): (r: string)
    ensures |r| == |s|
    ensures forall i :: 0 <= i < |s| ==> r[i] == LowerChar(s[i])
  {
    seq(|s|, i requires 0 <= i < |s| => LowerChar(s[i]))
  }

  predicate EndsWith(s: string, suffix: string)
  {
    |suffix| <= |s| && s[|s| - |suffix|..] == suffix
  }

  /** `s.rfind(c)`: the last position of `c`, or -1. */
  function RFind(s: string, c: char): (r: int)
    ensures -1 <= r < |s|
    ensures r >= 0 ==> s[r] == c
    ensures forall i :: r < i < |s| ==> s[i] != c
  {
    if |s| == 0 then -1
    else if s[|s| - 1] == c then |s| - 1
    else RFind(s[..|s| - 1], c)
  }

  /** `os.path.splitext(p)` (posixpath): the extension starts at the last
      dot, provided that dot lies in the last path component and is
      preceded there by something other than dots (so `.bashrc` and `..`
      have no extension). */
  function SplitExt(p: string): (r: (string, string))
    ensures r.0 + r.1 == p
    ensures r.1 == [] || (r.1[0] == '.' && forall i :: 0 < i < |r.1| ==> r.1[i] != '.' && r.1[i] != '/')
    ensures r.1 != [] ==> exists i :: RFind(p, '/') < i < |r.0| && p[i] != '.'
    ensures r.1 == [] ==> forall i, j :: RFind(p, '/') < i < j < |p| && p[j] == '.' ==> p[i] == '.'
  {
    var sepIndex := RFind(p, '/');
    var dotIndex := RFind(p, '.');
    if dotIndex > sepIndex && exists i :: sepIndex + 1 <= i < dotIndex && p[i] != '.' then
      (p[..dotIndex], p[dotIndex..])
    else
      (p, [])
  }

  lemma LowerAppend(a: string, b: string)
    ensures Lower(a + b) == Lower(a) + Lower(b)
  {
  }

  /** The file name handed to the encoder (video_processor.py and main.py):
      kept when it already ends in `.webm` in any letter case, otherwise
      its extension, if any, is replaced by `.webm`. */
  function OutputName(path: string): (r: string)
    ensures EndsWith(Lower(r), WebmSuffix)
    ensures EndsWith(Lower(path), WebmSuffix) ==> r == path
    ensures !EndsWith(Lower(path), WebmSuffix) ==>
      exists k :: 0 <= k <= |path| && r == path[..k] + WebmSuffix && forall i :: k < i < |path| ==> path[i] != '/'
    ensures !EndsWith(Lower(path), WebmSuffix) ==> r == SplitExt(path).0 + WebmSuffix
  {
    if EndsWith(Lower(path), WebmSuffix) then path
    else
      var root := SplitExt(path).0;
      RewriteEndsWithWebm(root);
      SplitExtRootIsPrefix(path);
      root + WebmSuffix
  }

  lemma RewriteEndsWithWebm(root: string)
    ensures EndsWith(Lower(root + WebmSuffix), WebmSuffix)
  {
    LowerAppend(root, WebmSuffix);
    assert Lower(WebmSuffix) == WebmSuffix;
    var l := Lower(root + WebmSuffix);
    assert l[|l| - |WebmSuffix|..] == Lower(WebmSuffix);
  }

  lemma SplitExtRootIsPrefix(path: string)
    ensures var k := |SplitExt(path).0|;
      k <= |path| && path[..k] == SplitExt(path).0 && forall i :: k < i < |path| ==> path[i] != '/'
  {
    var (root, ext) := SplitExt(path);
    assert path == root + ext;
    forall i | |root| < i < |path|
      ensures path[i] != '/'
    {
      assert path[i] == ext[i - |root|];
    }
  }

  /** The last position of `c` is the one after which `c` no longer occurs. */
  lemma RFindAt(s: string, c: char, k: int)
    requires -1 <= k < |s| && (k >= 0 ==> s[k] == c)
    requires forall i :: k < i < |s| ==> s[i] != c
    ensures RFind(s, c) == k
  {
  }

  /** The extension, not the whole name, is replaced. */
  lemma OutputNameReplacesExtension()
    ensures OutputName("a.mp4") == "a.webm"
  {
    var q := "a.mp4";
    assert Lower(q)[0] == 'a';
    assert !EndsWith(Lower(q), WebmSuffix);
    SplitExtAtDot(q);
  }

  lemma SplitExtAtDot(q: string)
    requires q == "a.mp4"
    ensures SplitExt(q).0 == "a"
  {
    RFindAt(q, '.', 1);
    RFindAt(q, '/', -1);
    assert q[0] != '.';
    assert q[..1] == "a";
  }

  /** A dot in a directory name is not an extension. */
  lemma OutputNameKeepsDirectoryDots()
    ensures OutputName("a.b/c") == "a.b/c.webm"
  {
    var q := "a.b/c";
    assert Lower(q)[0] == 'a';
    assert !EndsWith(Lower(q), WebmSuffix);
    RFindAt(q, '.', 1);
    RFindAt(q, '/', 3);
    assert SplitExt(q).0 == q;
  }

  /** A leading dot of the file name is not an extension. */
  lemma OutputNameKeepsLeadingDot()
    ensures OutputName(".abc") == ".abc.webm"
  {
    var q := ".abc";
    assert !EndsWith(Lower(q), WebmSuffix);
    RFindAt(q, '.', 0);
    RFindAt(q, '/', -1);
    assert SplitExt(q).0 == q;
  }

  /** Rewriting twice is rewriting once. */
  lemma OutputNameIdempotent(path: string)
    ensures OutputName(OutputName(path)) == OutputName(path)
  {
  }
}

=== FILE: pose.dfy ===
/** `detect_pose` (modules/skeletor-py/pose_detector.py, duplicated in
    main.py): input validation, the letterbox that fits the frame into the
    detector's square input, and the inverse mapping of the detector's
    normalised keypoints back to frame pixels, with the single-pose and
    multi-pose acceptance rules. Arithmetic is exact (`real`); the
    detector's output tensor is an input of the model. */
module PoseDetector {
  import opened Basics
  import opened Skeleton

  /** A keypoint `(y, x, score)`: normalised to the detector's input square
      when it comes from the network, in frame pixels once mapped back. */
  datatype Keypoint = Keypoint(y: real, x: real, score: real)

  type Person = seq<Keypoint>

  /** What is handed in as `frame`: `None`, some non-array object, or an
      array with the given shape. */
  datatype FrameArg = NoFrame | NotArray | Array(shape: seq<int>)

  /** The frame passes the checks that precede inference: a 3-D array with
      positive height and width and exactly three channels. */
  predicate ValidFrame(frame: FrameArg)
  {
    frame.Array? && |frame.shape| == 3 && frame.shape[0] > 0 && frame.shape[1] > 0 && frame.shape[2] == 3
  }

  /** The detector's `output_0` tensor with its batch axis dropped: one row
      per person slot (`shape[1]` rows). A single-pose row is the 17x3
      keypoint array flattened row-major (51 values); a multi-pose row is 51
      keypoint values followed by the bounding box `[ymin, xmin, ymax, xmax,
      score]`. */
  datatype RawOutput = RawOutput(rows: seq<seq<real>>)

  const RowKeypointValues: nat := 3 * KeypointCount

  /** Aspect-preserving fit of an `h x w` frame into the `s x s` input. */
  datatype Letterbox = Letterbox(scale: real, newH: int, newW: int, padY: int, padX: int)

  lemma QuotientOrder(s: real, a: real, b: real)
    requires s > 0.0 && a >= b > 0.0
    ensures s / a <= s / b
  {
  }

  lemma TimesQuotient(h: real, s: real)
    requires h > 0.0
    ensures h * (s / h) == s
  {
  }

  /** The letterbox of pose_detector.py: `scale = min(S/h, S/w)`, the
      resized extents truncated to integers, and integer half-pads. The
      resized frame fits the canvas, its longer side fills it exactly, and
      it is centred: each pad is the floor of half the spare room. */
  function ComputeLetterbox(h: nat, w: nat, s: nat): (lb: Letterbox)
    requires h > 0 && w > 0 && s > 0
    ensures lb.scale > 0.0
    ensures lb.scale <= s as real / h as real && lb.scale <= s as real / w as real
    ensures 0 <= lb.newH <= s && 0 <= lb.newW <= s
    ensures lb.newH as real <= h as real * lb.scale < lb.newH as real + 1.0
    ensures lb.newW as real <= w as real * lb.scale < lb.newW as real + 1.0
    ensures lb.padY >= 0 && lb.padX >= 0
    ensures lb.padY + lb.newH <= s && lb.padX + lb.newW <= s
    ensures 0 <= (s - lb.newH) - 2 * lb.padY <= 1 && 0 <= (s - lb.newW) - 2 * lb.padX <= 1
    ensures h >= w ==> lb.newH == s && lb.padY == 0
    ensures w >= h ==> lb.newW == s && lb.padX == 0
  {
    var scale := MinReal(s as real / h as real, s as real / w as real);
    ScaleFacts(h, w, s, scale);
    var scaledH := h as real * scale;
    var scaledW := w as real * scale;
    ExtentFacts(scaledH, s);
    ExtentFacts(scaledW, s);
    Letterbox(scale, Trunc(scaledH), Trunc(scaledW), (s - Trunc(scaledH)) / 2, (s - Trunc(scaledW)) / 2)
  }

  /** One side of the letterbox: a scaled extent that fits the canvas,
      truncated, and centred by the floor of half the spare room. */
  lemma ExtentFacts(scaled: real, s: nat)
    requires 0.0 <= scaled <= s as real
    ensures var n := Trunc(scaled); var pad := (s - n) / 2;
      && 0 <= n <= s && n as real <= scaled < n as real + 1.0
      && pad >= 0 && pad + n <= s && 0 <= (s - n) - 2 * pad <= 1
      && (scaled == s as real ==> n == s && pad == 0)
  {
  }

  lemma ScaleFacts(h: nat, w: nat, s: nat, scale: real)
    requires h > 0 && w > 0 && s > 0
    requires scale == MinReal(s as real / h as real, s as real / w as real)
    ensures scale > 0.0
    ensures scale <= s as real / h as real && scale <= s as real / w as real
    ensures 0.0 <= h as real * scale <= s as real && 0.0 <= w as real * scale <= s as real
    ensures h >= w ==> h as real * scale == s as real
    ensures w >= h ==> w as real * scale == s as real
  {
    var sh := s as real / h as real;
    var sw := s as real / w as real;
    TimesQuotient(h as real, s as real);
    TimesQuotient(w as real, s as real);
    if h >= w {
      QuotientOrder(s as real, h as real, w as real);
    }
    if w >= h {
      QuotientOrder(s as real, w as real, h as real);
    }
    assert h as real * scale <= h as real * sh;
    assert w as real * scale <= w as real * sw;
  }

  /** Where a frame coordinate lands on the detector's canvas: scaled by
      `scale`, then shifted by the pad. */
  function Forward(v: real, scale: real, pad: int): real
  {
    v * scale + pad as real
  }

  /** The de-normalisation of pose_detector.py, before clamping:
      `(n * S - pad) / scale`. */
  function Denormalise(n: real, s: nat, pad: int, scale: real): real
    requires scale > 0.0
  {
    (n * s as real - pad as real) / scale
  }

  /** De-normalisation undoes the forward letterbox map built from the same
      scale and pad: a canvas position normalised by `S` comes back to the
      frame coordinate it came from. */
  lemma DenormaliseInvertsForward(v: real, s: nat, pad: int, scale: real)
    requires s > 0 && scale > 0.0
    ensures Denormalise(Forward(v, scale, pad) / s as real, s, pad, scale) == v
  {
    var c := Forward(v, scale, pad);
    assert c / s as real * s as real == c;
    assert c - pad as real == v * scale;
    assert v * scale / scale == v;
  }

  /** One normalised coordinate mapped back and clipped to `[0, extent-1]`:
      a position inside the frame is kept, one outside goes to the nearest
      edge. */
  function MapCoord(n: real, s: nat, pad: int, scale: real, extent: nat): (r: real)
    requires scale > 0.0 && extent > 0
    ensures 0.0 <= r <= (extent - 1) as real
    ensures 0.0 <= Denormalise(n, s, pad, scale) <= (extent - 1) as real ==> r == Denormalise(n, s, pad, scale)
    ensures Denormalise(n, s, pad, scale) < 0.0 ==> r == 0.0
    ensures Denormalise(n, s, pad, scale) > (extent - 1) as real ==> r == (extent - 1) as real
  {
    Clip(Denormalise(n, s, pad, scale), 0.0, (extent - 1) as real)
  }

  /** A pixel inside the frame survives the round trip unchanged: letterbox
      it, normalise it, and map it back. */
  lemma PixelRoundTrip(h: nat, w: nat, s: nat, y: real, x: real)
    requires h > 0 && w > 0 && s > 0
    requires 0.0 <= y <= (h - 1) as real && 0.0 <= x <= (w - 1) as real
    ensures var lb := ComputeLetterbox(h, w, s);
      && MapCoord(Forward(y, lb.scale, lb.padY) / s as real, s, lb.padY, lb.scale, h) == y
      && MapCoord(Forward(x, lb.scale, lb.padX) / s as real, s, lb.padX, lb.scale, w) == x
  {
    var lb := ComputeLetterbox(h, w, s);
    DenormaliseInvertsForward(y, s, lb.padY, lb.scale);
    DenormaliseInvertsForward(x, s, lb.padX, lb.scale);
  }

  /** The 17 raw keypoints of a row (its first 51 values, read as triples). */
  function RawKeypoints(row: seq<real>): (kps: seq<Keypoint>)
    requires |row| >= RowKeypointValues
    ensures |kps| == KeypointCount
    ensures forall i :: 0 <= i < KeypointCount ==>
      kps[i] == Keypoint(row[3 * i], row[3 * i + 1], row[3 * i + 2])
  {
    seq(KeypointCount, i requires 0 <= i < KeypointCount => Keypoint(row[3 * i], row[3 * i + 1], row[3 * i + 2]))
  }

  /** A raw keypoint mapped into the `h x w` frame, score kept. */
  function MapKeypoint(kp: Keypoint, lb: Letterbox, h: nat, w: nat, s: nat): (r: Keypoint)
    requires lb.scale > 0.0 && h > 0 && w > 0
    ensures r.score == kp.score
    ensures 0.0 <= r.y <= (h - 1) as real && 0.0 <= r.x <= (w - 1) as real
  {
    Keypoint(MapCoord(kp.y, s, lb.padY, lb.scale, h), MapCoord(kp.x, s, lb.padX, lb.scale, w), kp.score)
  }

  /** The largest score of a non-empty keypoint list (`np.max`). */
  function MaxScore(kps: seq<Keypoint>): (m: real)
    requires |kps| > 0
    ensures forall i :: 0 <= i < |kps| ==> kps[i].score <= m
    ensures exists i :: 0 <= i < |kps| && kps[i].score == m
  {
    if |kps| == 1 then kps[0].score
    else
      var rest := MaxScore(kps[1..]);
      assert forall i :: 1 <= i < |kps| ==> kps[i] == kps[1..][i - 1];
      if kps[0].score >= rest then kps[0].score else rest
  }

  lemma NoScoreAbove(row: seq<real>, best: real, threshold: real)
    requires |row| == RowKeypointValues
    requires best == MaxScore(RawKeypoints(row)) && best <= threshold
    ensures forall i :: 0 <= i < KeypointCount ==> row[3 * i + 2] <= threshold
  {
    var kps := RawKeypoints(row);
    forall i | 0 <= i < KeypointCount
      ensures row[3 * i + 2] <= threshold
    {
      assert kps[i].score == row[3 * i + 2];
    }
  }

  /** The single-pose branch: the person is kept when its best keypoint
      beats the threshold, with every keypoint mapped and every score
      kept. */
  function SinglePose(row: seq<real>, lb: Letterbox, h: nat, w: nat, s: nat, threshold: real): (r: seq<Person>)
    requires |row| == RowKeypointValues && lb.scale > 0.0 && h > 0 && w > 0
    ensures |r| <= 1
    ensures |r| == 1 <==> exists i :: 0 <= i < KeypointCount && row[3 * i + 2] > threshold
    ensures |r| == 1 ==> |r[0]| == KeypointCount
    ensures |r| == 1 ==> forall i :: 0 <= i < KeypointCount ==>
      r[0][i] == MapKeypoint(Keypoint(row[3 * i], row[3 * i + 1], row[3 * i + 2]), lb, h, w, s)
  {
    var kps := RawKeypoints(row);
    var best := MaxScore(kps);
    if best > threshold then
      [seq(KeypointCount, i requires 0 <= i < KeypointCount => MapKeypoint(kps[i], lb, h, w, s))]
    else
      NoScoreAbove(row, best, threshold);
      []
  }

  /** The whole-person score of a multi-pose row: `bbox[4]`, or 0.0 when
      the row carries no such entry. */
  function PersonScore(row: seq<real>): real
    requires |row| >= RowKeypointValues
  {
    if |row| > RowKeypointValues + 4 then row[RowKeypointValues + 4] else 0.0
  }

  /** One accepted multi-pose person: every score kept; coordinates mapped
      where the keypoint's own score beats the threshold and (0, 0)
      elsewhere. */
  function PersonFromRow(row: seq<real>, lb: Letterbox, h: nat, w: nat, s: nat, threshold: real): (p: Person)
    requires |row| >= RowKeypointValues && lb.scale > 0.0 && h > 0 && w > 0
    ensures |p| == KeypointCount
    ensures forall i :: 0 <= i < KeypointCount ==> p[i].score == row[3 * i + 2]
    ensures forall i :: 0 <= i < KeypointCount && row[3 * i + 2] > threshold ==>
      p[i] == MapKeypoint(Keypoint(row[3 * i], row[3 * i + 1], row[3 * i + 2]), lb, h, w, s)
    ensures forall i :: 0 <= i < KeypointCount && row[3 * i + 2] <= threshold ==>
      p[i].y == 0.0 && p[i].x == 0.0
  {
    var kps := RawKeypoints(row);
    seq(KeypointCount, i requires 0 <= i < KeypointCount =>
      if kps[i].score > threshold then MapKeypoint(kps[i], lb, h, w, s)
      else Keypoint(0.0, 0.0, kps[i].score))
  }

  /** A row that is long enough to reshape and whose person score beats
      the threshold. */
  predicate Beats(row: seq<real>, threshold: real)
  {
    |row| >= RowKeypointValues && PersonScore(row) > threshold
  }

  /** The rows that beat the threshold, in their order. */
  function Accepted(rows: seq<seq<real>>, threshold: real): (a: seq<seq<real>>)
    ensures |a| <= |rows|
    ensures forall x :: x in a ==> x in rows && Beats(x, threshold)
    ensures forall i :: 0 <= i < |a| ==> Beats(a[i], threshold)
    ensures forall j :: 0 <= j < |rows| && Beats(rows[j], threshold) ==> rows[j] in a
  {
    if |rows| == 0 then []
    else
      var rest := Accepted(rows[1..], threshold);
      assert forall j :: 1 <= j < |rows| ==> rows[j] == rows[1..][j - 1];
      if Beats(rows[0], threshold) then [rows[0]] + rest else rest
  }

  /** The multi-pose branch: rows are visited in order; a row too short to
      hold 17 keypoints makes the reshape raise, which aborts the whole
      call; otherwise a row yields a person exactly when its person score
      beats the threshold. */
  function MultiPose(rows: seq<seq<real>>, lb: Letterbox, h: nat, w: nat, s: nat, threshold: real): (r: Option<seq<Person>>)
    requires lb.scale > 0.0 && h > 0 && w > 0
    ensures r.None? <==> exists j :: 0 <= j < |rows| && |rows[j]| < RowKeypointValues
    ensures r.Some? ==> |r.value| <= |rows|
    ensures r.Some? ==> forall j :: 0 <= j < |rows| && PersonScore(rows[j]) > threshold ==>
      PersonFromRow(rows[j], lb, h, w, s, threshold) in r.value
    ensures r.Some? ==> forall p :: p in r.value ==>
      exists j :: 0 <= j < |rows| && PersonScore(rows[j]) > threshold && p == PersonFromRow(rows[j], lb, h, w, s, threshold)
  {
    if |rows| == 0 then Some([])
    else if |rows[0]| < RowKeypointValues then None
    else
      var rest := MultiPose(rows[1..], lb, h, w, s, threshold);
      assert forall j :: 1 <= j < |rows| ==> rows[j] == rows[1..][j - 1];
      if rest.None? then None
      else if PersonScore(rows[0]) > threshold then
        Some([PersonFromRow(rows[0], lb, h, w, s, threshold)] + rest.value)
      else
        rest
  }

  /** The persons of the given rows, one per row, in order. */
  function PersonsOf(rows: seq<seq<real>>, lb: Letterbox, h: nat, w: nat, s: nat, threshold: real): (ps: seq<Person>)
    requires lb.scale > 0.0 && h > 0 && w > 0
    requires forall i :: 0 <= i < |rows| ==> |rows[i]| >= RowKeypointValues
    ensures |ps| == |rows|
    ensures forall i :: 0 <= i < |rows| ==> ps[i] == PersonFromRow(rows[i], lb, h, w, s, threshold)
  {
    if |rows| == 0 then []
    else [PersonFromRow(rows[0], lb, h, w, s, threshold)] + PersonsOf(rows[1..], lb, h, w, s, threshold)
  }

  /** The multi-pose result is exactly the accepted rows' persons, one per
      row, in row order. */
  lemma {:induction false} MultiPoseIsFilterMap(rows: seq<seq<real>>, lb: Letterbox, h: nat, w: nat, s: nat, threshold: real)
    requires lb.scale > 0.0 && h > 0 && w > 0
    ensures var r := MultiPose(rows, lb, h, w, s, threshold);
      r.Some? ==> r.value == PersonsOf(Accepted(rows, threshold), lb, h, w, s, threshold)
  {
    if |rows| > 0 && |rows[0]| >= RowKeypointValues {
      var rest := MultiPose(rows[1..], lb, h, w, s, threshold);
      var acc := Accepted(rows[1..], threshold);
      MultiPoseIsFilterMap(rows[1..], lb, h, w, s, threshold);
      if rest.Some? && Beats(rows[0], threshold) {
        assert Accepted(rows, threshold) == [rows[0]] + acc;
        assert ([rows[0]] + acc)[1..] == acc;
      } else if rest.Some? {
        assert Accepted(rows, threshold) == acc;
      }
    }
  }

  /** `detect_pose`. `inputSize` is `model_input_size` (`None` when unset)
      and `output` the detector's result (`None` when inference raised or
      no model was given). Every failure path returns `None`. */
  function DetectPose(frame: FrameArg, inputSize: Option<int>, threshold: real, output: Option<RawOutput>): (r: Option<seq<Person>>)
    ensures !ValidFrame(frame) ==> r.None?
    ensures r.Some? ==> ValidFrame(frame) && output.Some?
    ensures r.Some? ==> forall p: Person, i :: p in r.value && 0 <= i < |p| ==>
      0.0 <= p[i].y <= (frame.shape[0] - 1) as real && 0.0 <= p[i].x <= (frame.shape[1] - 1) as real
    ensures r.Some? ==> forall p :: p in r.value ==> |p| == KeypointCount
    ensures r.Some? && |output.value.rows| == 1 ==> |r.value| <= 1
    ensures r.Some? && |output.value.rows| == 0 ==> r.value == []
    ensures r.Some? && |output.value.rows| > 1 ==> forall p: Person, i :: p in r.value && 0 <= i < |p| && p[i].score <= threshold ==>
      p[i].y == 0.0 && p[i].x == 0.0
  {
    if !ValidFrame(frame) then None
    else if inputSize.None? || inputSize.value <= 0 then None
    else
      var h: nat := frame.shape[0];
      var w: nat := frame.shape[1];
      var s: nat := inputSize.value;
      var lb := ComputeLetterbox(h, w, s);
      if lb.newH == 0 || lb.newW == 0 then None    // cv2.resize refuses an empty size
      else if output.None? then None
      else
        var rows := output.value.rows;
        if |rows| == 1 then
          if |rows[0]| != RowKeypointValues then None
          else Some(SinglePose(rows[0], lb, h, w, s, threshold))
        else if |rows| > 1 then
          MultiPose(rows, lb, h, w, s, threshold)
        else
          Some([])
  }
}

=== FILE: reader.dfy ===
/** `frame_reader` (video_processor.py and main.py): the thread that
    decodes frames and enqueues `(frame, index, params)` tasks, followed by
    end markers. Time, sleeping and the consumers are the environment: each
    `Tick` is one iteration of the reader's loop, carrying what the reader
    observes — whether `processing_done` is set, the queue size at the
    check, and whether a slot frees up within the one-second `put`
    timeout. The frame type is left generic. */
module Reader {
  import opened Basics
  import opened Sizing

  /** A queue entry: a task with its frame and index, or `None`. */
  datatype Item<F> = Task(frame: F, index: nat) | EndMarker

  datatype Tick =
    | Done                                // `processing_done` is set
    | Poll(queued: nat, drainsInTime: bool)

  /** `frame_idx` is `nextIndex` (equal to `frame_read_count`), `consumed`
      counts frames taken from the capture, `ended` records the end marker
      put after the last frame. */
  datatype ReaderState<F> = ReaderState(items: seq<Item<F>>, nextIndex: nat, consumed: nat, ended: bool, finished: bool)

  function Start<F>(): ReaderState<F>
  {
    ReaderState([], 0, 0, false, false)
  }

  /** The queue so far holds the tasks `0 .. nextIndex - 1` in order,
      followed by at most one end marker, which is only put once the
      source is exhausted. */
  ghost predicate Inv<F>(src: seq<F>, st: ReaderState<F>)
  {
    && st.nextIndex <= st.consumed <= |src|
    && |st.items| == st.nextIndex + (if st.ended then 1 else 0)
    && (forall i :: 0 <= i < st.nextIndex ==> st.items[i].Task? && st.items[i].index == i)
    && (st.ended ==> st.items[st.nextIndex] == EndMarker && st.finished && st.consumed == |src|)
  }

  /** Every frame taken from the capture was enqueued, and task `i` carries
      source frame `i`. */
  ghost predicate Lossless<F>(src: seq<F>, st: ReaderState<F>)
    requires Inv(src, st)
  {
    st.nextIndex == st.consumed && forall i :: 0 <= i < st.nextIndex ==> st.items[i].frame == src[i]
  }

  /** One iteration of the loop: wait while the queue holds at least
      `bound` items; at the end of the stream put the end marker and stop;
      otherwise read the next frame and try to put it, which fails (and
      loses the frame) when the queue is full and nothing drains within the
      timeout. */
  function Step<F>(bound: int, capacity: int, src: seq<F>, st: ReaderState<F>, tick: Tick): (r: ReaderState<F>)
    requires Inv(src, st) && !st.finished
    ensures Inv(src, r)
    ensures r.consumed >= st.consumed && r.nextIndex >= st.nextIndex
    ensures r.items[..st.nextIndex] == st.items[..st.nextIndex]
    ensures bound <= capacity && Lossless(src, st) ==> Lossless(src, r)
  {
    match tick
    case Done => st.(finished := true)
    case Poll(queued, drainsInTime) =>
      if queued >= bound then st
      else if st.consumed == |src| then st.(items := st.items + [EndMarker], ended := true, finished := true)
      else if queued < capacity || drainsInTime then
        st.(items := st.items + [Task(src[st.consumed], st.nextIndex)],
            nextIndex := st.nextIndex + 1, consumed := st.consumed + 1)
      else
        st.(consumed := st.consumed + 1)
  }

  /** The reader's loop over the ticks it is given; it returns once it
      has finished or the ticks run out. */
  function Loop<F>(bound: int, capacity: int, src: seq<F>, ticks: seq<Tick>, st: ReaderState<F>): (r: ReaderState<F>)
    requires Inv(src, st)
    ensures Inv(src, r)
    ensures r.consumed >= st.consumed && r.nextIndex >= st.nextIndex
    ensures r.items[..st.nextIndex] == st.items[..st.nextIndex]
    ensures st.finished ==> r == st
    ensures bound <= capacity && Lossless(src, st) ==> Lossless(src, r)
    decreases |ticks|
  {
    if st.finished || |ticks| == 0 then st
    else
      var next := Step(bound, capacity, src, st, ticks[0]);
      var r := Loop(bound, capacity, src, ticks[1..], next);
      assert r.items[..st.nextIndex] == r.items[..next.nextIndex][..st.nextIndex];
      assert next.items[..st.nextIndex] == next.items[..next.nextIndex][..st.nextIndex];
      r
  }

  /** After the loop: `extra` non-blocking end markers, of which only as
      many as there is `room` for get in. */
  function Epilogue<F>(items: seq<Item<F>>, extra: int, room: nat): (r: seq<Item<F>>)
    ensures |r| == |items| + MaxInt(0, MinInt(extra, room))
    ensures r[..|items|] == items
    ensures forall i :: |items| <= i < |r| ==> r[i] == EndMarker
  {
    items + seq(MaxInt(0, MinInt(extra, room)), _ => EndMarker)
  }

  /** The reader's threshold, capped at the queue's capacity. With the
      threshold above the capacity the reader reads a frame while the
      queue is full and loses it if the `put` times out; video_processor.py
      passes the capacity itself, main.py a larger number. */
  function EffectiveBound(plan: RunPlan): (b: int)
    ensures b <= plan.queueCapacity
    ensures plan.readerBound <= plan.queueCapacity ==> b == plan.readerBound
  {
    MinInt(plan.readerBound, plan.queueCapacity)
  }

  /** What the reader puts on the queue over a run and its return value,
      `frame_read_count`. */
  datatype ReaderRun<F> = ReaderRun(items: seq<Item<F>>, readCount: nat)

  /** One reader run under `plan`: the loop, then the extra end markers.
      `room` is the free space in the queue when the extra markers are
      attempted. The loop's threshold is capped at the queue's capacity,
      which leaves a video_processor.py plan unchanged; for a main.py plan
      this is the corrected reader, not main.py's own
      (see `DraftReaderLosesFrame`). */
  function RunReader<F>(plan: RunPlan, src: seq<F>, ticks: seq<Tick>, room: nat): (r: ReaderRun<F>)
    ensures r.readCount <= |src| && r.readCount <= |r.items|
    ensures forall i :: 0 <= i < r.readCount ==> r.items[i] == Task(src[i], i)
    ensures forall i :: r.readCount <= i < |r.items| ==> r.items[i] == EndMarker
    ensures |r.items| <= r.readCount + 1 + MaxInt(0, plan.extraSentinels)
  {
    var st := Loop(EffectiveBound(plan), plan.queueCapacity, src, ticks, Start());
    ReaderRun(Epilogue(st.items, plan.extraSentinels, room), st.nextIndex)
  }

  /** main.py as written: with its threshold above the capacity, a frame
      read while the queue is full is lost when nothing drains within the
      timeout, and the next frame is enqueued under the lost frame's index.
      Here frame `f0` is dropped and `f1` travels as frame 0. */
  lemma DraftReaderLosesFrame<F>(plan: RunPlan, f0: F, f1: F)
    requires plan.queueCapacity >= 0 && plan.readerBound > plan.queueCapacity
    ensures var st := Loop(plan.readerBound, plan.queueCapacity, [f0, f1],
                           [Poll(plan.queueCapacity, false), Poll(0, true)], Start());
      st.items == [Task(f1, 0)] && st.consumed == 2 && st.nextIndex == 1
  {
    var src := [f0, f1];
    var s0: ReaderState<F> := Start();
    var s1 := Step(plan.readerBound, plan.queueCapacity, src, s0, Poll(plan.queueCapacity, false));
    assert s1 == ReaderState([], 0, 1, false, false);
    var s2 := Step(plan.readerBound, plan.queueCapacity, src, s1, Poll(0, true));
    assert s2 == ReaderState([Task(f1, 0)], 1, 2, false, false);
    var ticks := [Poll(plan.queueCapacity, false), Poll(0, true)];
    assert ticks[1..] == [Poll(0, true)];
    assert [Poll(0, true)][1..] == [];
    assert Loop(plan.readerBound, plan.queueCapacity, src, [], s2) == s2;
    assert Loop(plan.readerBound, plan.queueCapacity, src, [Poll(0, true)], s1) == s2;
    assert Loop(plan.readerBound, plan.queueCapacity, src, ticks, s0) == s2;
  }

  /** Every plan main.py builds has its threshold above the capacity, so
      the loss above is reachable for every video it opens. */
  lemma DraftPlansExposeLoss(cap: Capture, processingWidth: Option<int>, threads: Option<int>, cpuCount: nat)
    requires cap.Opened?
    ensures var s := PlanRun(Draft, cap, processingWidth, threads, cpuCount);
      s.Ready? && s.plan.readerBound > s.plan.queueCapacity >= 0
      && EffectiveBound(s.plan) == s.plan.queueCapacity < s.plan.readerBound
  {
  }

  /** With the threshold capped, no frame is ever lost: task `i` carries
      source frame `i` for every interleaving of the consumers. */
  lemma ReaderKeepsEveryFrame<F>(plan: RunPlan, src: seq<F>, ticks: seq<Tick>)
    ensures var st := Loop(EffectiveBound(plan), plan.queueCapacity, src, ticks, Start());
      st.nextIndex == st.consumed && forall i :: 0 <= i < st.nextIndex ==> st.items[i] == Task(src[i], i)
  {
    var st := Loop(EffectiveBound(plan), plan.queueCapacity, src, ticks, Start());
    assert Lossless(src, st);
  }

  /** A video_processor.py plan already has its threshold at the capacity,
      so capping changes nothing there. */
  lemma ModularBoundUnchanged(cap: Capture, processingWidth: Option<int>, threads: Option<int>, cpuCount: nat)
    requires cap.Opened? && cap.totalFrames > 0 && cap.fps > 0.0
    ensures var s := PlanRun(Modular, cap, processingWidth, threads, cpuCount);
      s.Ready? && EffectiveBound(s.plan) == s.plan.readerBound
  {
  }
}

=== FILE: reassembly.dfy ===
/** The control loop of `process_video` (video_processor.py and main.py):
    submitting tasks with a bounded number in flight, collecting finished
    results into a map keyed by frame index, and draining that map in index
    order into the encoder's input. Time and threads are abstracted: one
    `Round` collects a batch of completions, in any order, and then drains;
    a run is any sequence of rounds. */
module Reassembly {
  import opened Basics
  import opened Images
  import opened Sizing
  import opened Worker
  import opened Reader

  // ---------------------------------------------------------------------
  // Submission

  /** What the loop gets from the frame queue: an item, or nothing within
      the 0.1 s timeout. */
  datatype Fetched<F> = Got(item: Item<F>) | QueueEmpty

  datatype Dispatched<F> = Dispatched(submitted: Option<Item<F>>, pending: nat, endSeen: bool)

  /** Step 1 of the loop: fetch and submit only while the end has not been
      seen and fewer than `limit` futures are pending. An end marker ends
      submission; so does an empty queue when `emptyMeansEnd` holds (the
      reader has exited and the queue is empty in video_processor.py; more
      than 20 empty polls after `total_frames` reads in main.py). */
  function Dispatch<F>(limit: int, pending: nat, endSeen: bool, fetched: Fetched<F>, emptyMeansEnd: bool): (r: Dispatched<F>)
    ensures r.submitted.Some? ==> r.submitted.value.Task? && !endSeen && pending < limit && fetched == Got(r.submitted.value)
    ensures r.pending == pending + (if r.submitted.Some? then 1 else 0)
    ensures pending <= limit ==> r.pending <= limit
    ensures r.endSeen <==> endSeen || (pending < limit && (fetched == Got(EndMarker) || (fetched.QueueEmpty? && emptyMeansEnd)))
    ensures !endSeen && pending < limit && fetched.Got? && fetched.item.Task? ==> r.submitted == Some(fetched.item)
  {
    if endSeen || pending >= limit then Dispatched(None, pending, endSeen)
    else match fetched
      case QueueEmpty => Dispatched(None, pending, emptyMeansEnd)
      case Got(EndMarker) => Dispatched(None, pending, true)
      case Got(item) => Dispatched(Some(item), pending + 1, false)
  }

  // ---------------------------------------------------------------------
  // Collection

  /** How a future finished: with the worker's `(index, image)`, or by
      raising. */
  datatype Outcome = Returned(result: Indexed) | Raised

  /** A finished future and the index it was submitted under. */
  datatype Completion = Completion(submitted: int, outcome: Outcome)

  /** The results map is keyed by the submitted index in
      video_processor.py; main.py keys returned results by the index the
      worker returned and only failed ones by the submitted index. */
  function KeyOf(rev: Revision, c: Completion): int
  {
    if rev == Draft && c.outcome.Returned? then c.outcome.result.index else c.submitted
  }

  /** A future that raised is replaced by the transparent blank of the
      target size. */
  function ImageOf(c: Completion, target: Dims): Image
  {
    if c.outcome.Returned? then c.outcome.result.image else Blank(target.height, target.width)
  }

  /** A completion counts as processed in video_processor.py whatever its
      outcome; main.py counts only the ones that returned. */
  function Counted(rev: Revision, c: Completion): nat
  {
    if rev == Modular || c.outcome.Returned? then 1 else 0
  }

  /** The image stored under key `k` after collecting `cs` in order, if
      any: later completions overwrite earlier ones, as dict assignment
      does. */
  function Lookup(rev: Revision, cs: seq<Completion>, k: int, target: Dims): (r: Option<Image>)
    ensures r.Some? <==> exists i :: 0 <= i < |cs| && KeyOf(rev, cs[i]) == k
    ensures r.Some? ==> exists i :: 0 <= i < |cs| && KeyOf(rev, cs[i]) == k && r.value == ImageOf(cs[i], target)
    decreases |cs|
  {
    if |cs| == 0 then None
    else if KeyOf(rev, cs[|cs| - 1]) == k then Some(ImageOf(cs[|cs| - 1], target))
    else
      var r := Lookup(rev, cs[..|cs| - 1], k, target);
      assert forall i :: 0 <= i < |cs| - 1 ==> cs[..|cs| - 1][i] == cs[i];
      r
  }

  lemma {:induction false} LookupAppend(rev: Revision, a: seq<Completion>, b: seq<Completion>, k: int, target: Dims)
    ensures Lookup(rev, a + b, k, target) ==
      if Lookup(rev, b, k, target).Some? then Lookup(rev, b, k, target) else Lookup(rev, a, k, target)
    decreases |b|
  {
    if |b| > 0 {
      assert (a + b)[..|a + b| - 1] == a + b[..|b| - 1];
      assert (a + b)[|a + b| - 1] == b[|b| - 1];
      LookupAppend(rev, a, b[..|b| - 1], k, target);
    } else {
      assert a + b == a;
    }
  }

  /** Loop state: pending results, the next index to write, what reached
      the encoder (with the index each frame was written for), the
      processed counter, and whether a write failed. */
  datatype Written = Written(index: int, image: Image)

  datatype State = State(results: map<int, Image>, cursor: int, written: seq<Written>, processed: nat, aborted: bool)

  function Initial(): State
  {
    State(map[], 0, [], 0, false)
  }

  function CountAll(rev: Revision, cs: seq<Completion>): nat
  {
    if |cs| == 0 then 0 else CountAll(rev, cs[..|cs| - 1]) + Counted(rev, cs[|cs| - 1])
  }

  /** Step 2 of the loop over a batch of completions. The map gains
      exactly the batch's keys, each holding the last image stored under
      it; nothing is written. */
  function CollectAll(rev: Revision, st: State, cs: seq<Completion>, target: Dims): (r: State)
    ensures r.cursor == st.cursor && r.written == st.written && r.aborted == st.aborted
    ensures r.processed == st.processed + CountAll(rev, cs)
    ensures forall k :: k in r.results <==> k in st.results || Lookup(rev, cs, k, target).Some?
    ensures forall k :: k in r.results ==>
      r.results[k] == if Lookup(rev, cs, k, target).Some? then Lookup(rev, cs, k, target).value else st.results[k]
    decreases |cs|
  {
    if |cs| == 0 then st
    else
      var prev := CollectAll(rev, st, cs[..|cs| - 1], target);
      var c := cs[|cs| - 1];
      prev.(results := prev.results[KeyOf(rev, c) := ImageOf(c, target)], processed := prev.processed + Counted(rev, c))
  }

  // ---------------------------------------------------------------------
  // Writing

  /** The encoder's input pipe: it accepts every write, or breaks at the
      write after `limit` successful ones. */
  datatype Sink = Unbounded | BreaksAfter(limit: nat)

  predicate Accepts(sink: Sink, count: nat)
  {
    sink.Unbounded? || count < sink.limit
  }

  /** video_processor.py writes a result only if it has exactly the target
      shape with four channels. */
  predicate WellShaped(img: Image, target: Dims)
  {
    HasShape(img, target.height, target.width, 4)
  }

  /** What gets written for a popped result: main.py replaces a result
      whose height or width is off by the blank (channels unchecked);
      video_processor.py writes the result itself (or skips it). */
  function Shown(rev: Revision, img: Image, target: Dims): (r: Image)
    ensures rev == Draft ==> r.height == target.height && r.width == target.width
    ensures rev == Modular || (img.height == target.height && img.width == target.width) ==> r == img
  {
    if rev == Draft && !(img.height == target.height && img.width == target.width) then Blank(target.height, target.width)
    else img
  }

  /** The frames written for consecutive keys `from .. to - 1`. */
  function Segment(rev: Revision, results: map<int, Image>, from: int, to: int, target: Dims): (s: seq<Written>)
    requires from <= to && forall k :: from <= k < to ==> k in results
    ensures |s| == to - from
    ensures forall i :: 0 <= i < |s| ==> s[i] == Written(from + i, Shown(rev, results[from + i], target))
  {
    seq(to - from, i requires 0 <= i < to - from => Written(from + i, Shown(rev, results[from + i], target)))
  }

  lemma SegmentCons(rev: Revision, results: map<int, Image>, from: int, to: int, target: Dims)
    requires from < to && forall k :: from <= k < to ==> k in results
    ensures Segment(rev, results, from, to, target) ==
      [Written(from, Shown(rev, results[from], target))] + Segment(rev, results - {from}, from + 1, to, target)
  {
    var rest := results - {from};
    assert forall k :: from + 1 <= k < to ==> k in rest && rest[k] == results[k];
  }

  /** `results` with the keys `from .. to - 1` removed. */
  function Without(results: map<int, Image>, from: int, to: int): (r: map<int, Image>)
    ensures forall k :: k in r <==> k in results && !(from <= k < to)
    ensures forall k :: k in r ==> r[k] == results[k]
  {
    map k | k in results && !(from <= k < to) :: results[k]
  }

  /** The frames video_processor.py writes for the keys `from .. to - 1`
      when no write fails: each well-shaped result, in index order; a
      result of the wrong shape is skipped. */
  function ShapedSegment(results: map<int, Image>, from: int, to: int, target: Dims): (s: seq<Written>)
    ensures forall i :: 0 <= i < |s| ==>
      (from <= s[i].index < to && s[i].index in results && s[i].image == results[s[i].index] && WellShaped(s[i].image, target))
    ensures forall i, j :: 0 <= i < j < |s| ==> s[i].index < s[j].index
    decreases if from < to then to - from else 0
  {
    if from >= to then []
    else if from in results && WellShaped(results[from], target) then
      [Written(from, results[from])] + ShapedSegment(results, from + 1, to, target)
    else
      ShapedSegment(results, from + 1, to, target)
  }

  /** Removing a key below the range does not change the segment. */
  lemma {:induction false} ShapedSegmentWithout(results: map<int, Image>, key: int, from: int, to: int, target: Dims)
    requires key < from
    ensures ShapedSegment(results - {key}, from, to, target) == ShapedSegment(results, from, to, target)
    decreases if from < to then to - from else 0
  {
    if from < to {
      ShapedSegmentWithout(results, key, from + 1, to, target);
    }
  }

  /** Popping the cursor's key and writing it (when well-shaped) leaves the
      remaining segment to the rest of the drain. */
  lemma ShapedSegmentStep(results: map<int, Image>, key: int, to: int, target: Dims, prefix: seq<Written>, out: seq<Written>)
    requires key in results && key < to
    requires out == prefix + (if WellShaped(results[key], target) then [Written(key, results[key])] else [])
                    + ShapedSegment(results - {key}, key + 1, to, target)
    ensures out == prefix + ShapedSegment(results, key, to, target)
  {
    ShapedSegmentWithout(results, key, key + 1, to, target);
  }

  /** Step 3 in video_processor.py: pop and write while the cursor's
      result is present. A result of the wrong shape is skipped and the
      cursor moves on; a failed write clears the results, marks the run
      aborted and leaves the cursor on the failed frame. */
  function DrainModular(st: State, sink: Sink, target: Dims): (r: State)
    ensures r.processed == st.processed && r.cursor >= st.cursor
    ensures |r.written| >= |st.written| && r.written[..|st.written|] == st.written
    ensures forall k :: st.cursor <= k < r.cursor ==> k in st.results
    ensures st.aborted ==> r == st
    ensures !st.aborted && r.aborted ==> r.results == map[]
    ensures !st.aborted && r.aborted ==>
      r.cursor in st.results && WellShaped(st.results[r.cursor], target) && !Accepts(sink, |r.written|)
    ensures !st.aborted && sink.Unbounded? ==> !r.aborted
    ensures !r.aborted ==> r.cursor !in r.results && r.results == Without(st.results, st.cursor, r.cursor)
    decreases |st.results|
  {
    if st.aborted || st.cursor !in st.results then
      assert Without(st.results, st.cursor, st.cursor) == st.results;
      st
    else
      var img := st.results[st.cursor];
      var rest := st.results - {st.cursor};
      if !WellShaped(img, target) then
        var r := DrainModular(st.(results := rest, cursor := st.cursor + 1), sink, target);
        DrainStepFacts(st, rest, r, []);
        r
      else if Accepts(sink, |st.written|) then
        var w := Written(st.cursor, img);
        var r := DrainModular(st.(results := rest, cursor := st.cursor + 1, written := st.written + [w]), sink, target);
        DrainStepFacts(st, rest, r, [w]);
        r
      else
        st.(results := map[], aborted := true)
  }

  lemma DrainStepFacts(st: State, rest: map<int, Image>, r: State, w: seq<Written>)
    requires st.cursor in st.results && rest == st.results - {st.cursor}
    requires |r.written| >= |st.written + w| && r.written[..|st.written + w|] == st.written + w
    requires r.cursor >= st.cursor + 1
    requires !r.aborted ==> r.results == Without(rest, st.cursor + 1, r.cursor)
    requires forall k :: st.cursor + 1 <= k < r.cursor ==> k in rest
    ensures r.written[..|st.written|] == st.written
    ensures forall k :: st.cursor <= k < r.cursor ==> k in st.results
    ensures !r.aborted ==> r.results == Without(st.results, st.cursor, r.cursor)
  {
    assert r.written[..|st.written|] == r.written[..|st.written + w|][..|st.written|];
    forall k | st.cursor <= k < r.cursor
      ensures k in st.results
    {
      if k > st.cursor {
        assert k in rest;
      }
    }
    if !r.aborted {
      assert Without(rest, st.cursor + 1, r.cursor) == Without(st.results, st.cursor, r.cursor);
    }
  }

  /** The frames a video_processor.py drain from `st` to `r` adds have
      exactly the target shape, are the stored results of indices the
      cursor passed, and go out in strictly increasing index order. */
  ghost predicate ModularWrites(st: State, r: State, target: Dims)
  {
    && |r.written| >= |st.written|
    && (forall i :: |st.written| <= i < |r.written| ==>
         st.cursor <= r.written[i].index < r.cursor && WellShaped(r.written[i].image, target)
         && r.written[i].index in st.results && r.written[i].image == st.results[r.written[i].index])
    && (forall i, j :: |st.written| <= i < j < |r.written| ==> r.written[i].index < r.written[j].index)
  }

  /** One video_processor.py drain step at a present key: pop it, and
      write it when it is well-shaped. */
  function Advance(st: State, target: Dims): (r: State)
    requires st.cursor in st.results
    ensures r.cursor == st.cursor + 1 && r.results == st.results - {st.cursor}
  {
    var img := st.results[st.cursor];
    st.(results := st.results - {st.cursor}, cursor := st.cursor + 1,
        written := st.written + if WellShaped(img, target) then [Written(st.cursor, img)] else [])
  }

  /** A drain that does not stop at the cursor continues from `Advance`. */
  lemma DrainModularUnfolds(st: State, sink: Sink, target: Dims)
    requires !st.aborted && st.cursor in st.results
    requires !WellShaped(st.results[st.cursor], target) || Accepts(sink, |st.written|)
    ensures DrainModular(st, sink, target) == DrainModular(Advance(st, target), sink, target)
  {
    if !WellShaped(st.results[st.cursor], target) {
      assert st.written + [] == st.written;
    }
  }

  /** For any sink, a video_processor.py drain writes exactly the
      well-shaped results of the indices its cursor passes, in index order;
      when a write fails, everything before the failing index has already
      gone out. */
  lemma {:induction false} DrainModularWritesSegment(st: State, sink: Sink, target: Dims)
    ensures var r := DrainModular(st, sink, target);
      !st.aborted ==> r.written == st.written + ShapedSegment(st.results, st.cursor, r.cursor, target)
    decreases |st.results|
  {
    if !st.aborted && st.cursor in st.results
       && (!WellShaped(st.results[st.cursor], target) || Accepts(sink, |st.written|)) {
      var next := Advance(st, target);
      DrainModularUnfolds(st, sink, target);
      DrainModularWritesSegment(next, sink, target);
      WritesFromAdvance(st, target, DrainModular(next, sink, target));
    } else if !st.aborted {
      DrainModularStops(st, sink, target);
    }
  }

  /** A drain that stops at the cursor writes nothing. */
  lemma DrainModularStops(st: State, sink: Sink, target: Dims)
    requires !st.aborted
    requires st.cursor !in st.results || (WellShaped(st.results[st.cursor], target) && !Accepts(sink, |st.written|))
    ensures DrainModular(st, sink, target).written == st.written
    ensures DrainModular(st, sink, target).cursor == st.cursor
  {
  }

  /** What the rest of the drain writes after `Advance`, prefixed by the
      step itself, is the segment from the cursor. */
  lemma WritesFromAdvance(st: State, target: Dims, r: State)
    requires st.cursor in st.results && r.cursor >= st.cursor + 1
    requires r.written == Advance(st, target).written + ShapedSegment(st.results - {st.cursor}, st.cursor + 1, r.cursor, target)
    ensures r.written == st.written + ShapedSegment(st.results, st.cursor, r.cursor, target)
  {
    ShapedSegmentStep(st.results, st.cursor, r.cursor, target, st.written, r.written);
  }

  lemma DrainModularWrites(st: State, sink: Sink, target: Dims)
    ensures ModularWrites(st, DrainModular(st, sink, target), target)
  {
    var r := DrainModular(st, sink, target);
    if !st.aborted {
      DrainModularWritesSegment(st, sink, target);
      var seg := ShapedSegment(st.results, st.cursor, r.cursor, target);
      forall i | |st.written| <= i < |r.written|
        ensures r.written[i] == seg[i - |st.written|]
      {
      }
    }
  }

  /** With a pipe that never breaks and only well-shaped results,
      video_processor.py writes every result from the cursor up to the
      first missing index, in order. */
  lemma {:induction false} DrainModularComplete(st: State, target: Dims)
    requires !st.aborted && forall k :: k in st.results ==> WellShaped(st.results[k], target)
    ensures var r := DrainModular(st, Unbounded, target);
      !r.aborted && r.written == st.written + Segment(Modular, st.results, st.cursor, r.cursor, target)
    decreases |st.results|
  {
    var r := DrainModular(st, Unbounded, target);
    if st.cursor !in st.results {
      assert Segment(Modular, st.results, st.cursor, r.cursor, target) == [];
    } else {
      var next := Advance(st, target);
      assert next.written == st.written + [Written(st.cursor, st.results[st.cursor])];
      DrainModularUnfolds(st, Unbounded, target);
      DrainModularComplete(next, target);
      SegmentCons(Modular, st.results, st.cursor, r.cursor, target);
    }
  }

  /** main.py's pop loop: the run of consecutive present keys starting at
      the cursor, in order, and the cursor just past it. */
  function PopRun(results: map<int, Image>, cursor: int): (r: (int, map<int, Image>))
    ensures r.0 >= cursor && r.0 !in r.1
    ensures forall k :: cursor <= k < r.0 ==> k in results
    ensures r.1 == Without(results, cursor, r.0)
    decreases |results|
  {
    if cursor !in results then
      assert Without(results, cursor, cursor) == results;
      (cursor, results)
    else
      var rest := results - {cursor};
      var r := PopRun(rest, cursor + 1);
      WithoutStep(results, cursor, r.0);
      r
  }

  /** Removing the cursor's key, then the keys after it, is removing the
      whole range. */
  lemma WithoutStep(results: map<int, Image>, cursor: int, to: int)
    requires cursor in results && to > cursor
    ensures Without(results - {cursor}, cursor + 1, to) == Without(results, cursor, to)
  {
    var a := Without(results - {cursor}, cursor + 1, to);
    var b := Without(results, cursor, to);
    assert a.Keys == b.Keys;
  }

  /** main.py's batch write: each frame in turn until the pipe breaks;
      the rest of the batch is then lost. */
  function WriteBatch(written: seq<Written>, batch: seq<Written>, sink: Sink): (r: (seq<Written>, bool))
    ensures |written| <= |r.0| <= |written| + |batch| && r.0 == (written + batch)[..|r.0|]
    ensures !r.1 <==> r.0 == written + batch
    ensures sink.Unbounded? ==> !r.1
    decreases |batch|
  {
    if |batch| == 0 then
      assert written + batch == written;
      (written, false)
    else if Accepts(sink, |written|) then
      var r := WriteBatch(written + [batch[0]], batch[1..], sink);
      assert written + [batch[0]] + batch[1..] == written + batch;
      r
    else
      assert (written + batch)[..|written|] == written;
      (written, true)
  }

  /** Step 3 in main.py: pop the whole run first (the cursor moves past
      it), then write it. What reaches the encoder is a prefix of the run,
      all of it unless a write failed; after a failed write the loop is
      left, so the remaining popped frames are never written. */
  function DrainDraft(st: State, sink: Sink, target: Dims): (r: State)
    ensures r.processed == st.processed && r.cursor >= st.cursor
    ensures forall k :: st.cursor <= k < r.cursor ==> k in st.results
    ensures st.aborted ==> r == st
    ensures !st.aborted ==> r.cursor !in r.results && r.results == Without(st.results, st.cursor, r.cursor)
    ensures !st.aborted ==>
      var full := st.written + Segment(Draft, st.results, st.cursor, r.cursor, target);
      && |st.written| <= |r.written| <= |full| && r.written == full[..|r.written|]
      && (!r.aborted <==> r.written == full)
    ensures !st.aborted && sink.Unbounded? ==> !r.aborted
  {
    if st.aborted then st
    else
      var (next, rest) := PopRun(st.results, st.cursor);
      var batch := Segment(Draft, st.results, st.cursor, next, target);
      var (w, failed) := WriteBatch(st.written, batch, sink);
      st.(results := rest, cursor := next, written := w, aborted := failed)
  }

  /** The frames a main.py drain from `st` to `r` adds have the target
      height and width, are the stored results (or the blank standing in
      for them) of indices the cursor passed, and go out in strictly
      increasing index order. */
  ghost predicate DraftWrites(st: State, r: State, target: Dims)
  {
    && |r.written| >= |st.written|
    && (forall i :: |st.written| <= i < |r.written| ==>
         st.cursor <= r.written[i].index < r.cursor
         && r.written[i].image.height == target.height && r.written[i].image.width == target.width
         && r.written[i].index in st.results
         && r.written[i].image == Shown(Draft, st.results[r.written[i].index], target))
    && (forall i, j :: |st.written| <= i < j < |r.written| ==> r.written[i].index < r.written[j].index)
  }

  lemma DrainDraftWrites(st: State, sink: Sink, target: Dims)
    ensures var r := DrainDraft(st, sink, target);
      r.written[..|st.written|] == st.written && DraftWrites(st, r, target)
  {
    var r := DrainDraft(st, sink, target);
    if !st.aborted {
      var seg := Segment(Draft, st.results, st.cursor, r.cursor, target);
      PrefixOfConcat(st.written, seg, r.written);
      DraftWritesFrom(st, r, seg, target);
    }
  }

  lemma DraftWritesFrom(st: State, r: State, seg: seq<Written>, target: Dims)
    requires r.cursor >= st.cursor && forall k :: st.cursor <= k < r.cursor ==> k in st.results
    requires seg == Segment(Draft, st.results, st.cursor, r.cursor, target)
    requires |st.written| <= |r.written| <= |st.written| + |seg|
    requires forall i :: |st.written| <= i < |r.written| ==> r.written[i] == seg[i - |st.written|]
    ensures DraftWrites(st, r, target)
  {
  }

  /** A prefix of `a + b` at least as long as `a` starts with `a` and
      continues with `b`. */
  lemma PrefixOfConcat(a: seq<Written>, b: seq<Written>, w: seq<Written>)
    requires |a| <= |w| <= |a + b| && w == (a + b)[..|w|]
    ensures w[..|a|] == a
    ensures forall i :: |a| <= i < |w| ==> w[i] == b[i - |a|]
  {
    assert w[..|a|] == (a + b)[..|a|];
  }

  function Drain(rev: Revision, st: State, sink: Sink, target: Dims): State
  {
    match rev
    case Modular => DrainModular(st, sink, target)
    case Draft => DrainDraft(st, sink, target)
  }

  /** One pass of the loop after submission: collect a batch, then drain.
      Nothing happens once a write has failed. */
  function Round(rev: Revision, st: State, cs: seq<Completion>, sink: Sink, target: Dims): State
  {
    if st.aborted then st else Drain(rev, CollectAll(rev, st, cs, target), sink, target)
  }

  function Run(rev: Revision, st: State, rounds: seq<seq<Completion>>, sink: Sink, target: Dims): State
    decreases |rounds|
  {
    if |rounds| == 0 || st.aborted then st else Run(rev, Round(rev, st, rounds[0], sink, target), rounds[1..], sink, target)
  }

  function Flatten(rounds: seq<seq<Completion>>): seq<Completion>
    decreases |rounds|
  {
    if |rounds| == 0 then [] else rounds[0] + Flatten(rounds[1..])
  }

  // ---------------------------------------------------------------------
  // Whole runs

  /** The shape a written frame is guaranteed: exactly the target shape in
      video_processor.py, the target height and width in main.py. */
  predicate OutputShaped(rev: Revision, img: Image, target: Dims)
  {
    if rev == Modular then WellShaped(img, target) else img.height == target.height && img.width == target.width
  }

  /** The encoder's input so far is in strictly increasing index order,
      behind the cursor, and correctly shaped. */
  ghost predicate Ordered(rev: Revision, st: State, target: Dims)
  {
    && st.cursor >= 0
    && (forall i, j :: 0 <= i < j < |st.written| ==> st.written[i].index < st.written[j].index)
    && (forall i :: 0 <= i < |st.written| ==> 0 <= st.written[i].index < st.cursor)
    && (forall i :: 0 <= i < |st.written| ==> OutputShaped(rev, st.written[i].image, target))
  }

  /** What a drain from `st` to `r` promises about the frames it adds:
      the old ones kept, the new ones beyond the old cursor and behind the
      new one, correctly shaped and in increasing index order. */
  ghost predicate Appends(rev: Revision, st: State, r: State, target: Dims)
  {
    && |r.written| >= |st.written| && r.written[..|st.written|] == st.written && r.cursor >= st.cursor
    && (forall i :: |st.written| <= i < |r.written| ==>
         st.cursor <= r.written[i].index < r.cursor && OutputShaped(rev, r.written[i].image, target))
    && (forall i, j :: |st.written| <= i < j < |r.written| ==> r.written[i].index < r.written[j].index)
  }

  lemma DrainAppends(rev: Revision, st: State, sink: Sink, target: Dims)
    ensures Appends(rev, st, Drain(rev, st, sink, target), target)
  {
    if rev == Modular {
      DrainModularWrites(st, sink, target);
    } else {
      DrainDraftWrites(st, sink, target);
    }
  }

  lemma AppendsKeepOrdered(rev: Revision, st: State, r: State, target: Dims)
    requires Ordered(rev, st, target) && Appends(rev, st, r, target)
    ensures Ordered(rev, r, target)
  {
    var n := |st.written|;
    assert forall i :: 0 <= i < n ==> r.written[i] == r.written[..n][i] == st.written[i];
  }

  lemma RoundKeepsOrdered(rev: Revision, st: State, cs: seq<Completion>, sink: Sink, target: Dims)
    requires Ordered(rev, st, target)
    ensures Ordered(rev, Round(rev, st, cs, sink, target), target)
  {
    if !st.aborted {
      var mid := CollectAll(rev, st, cs, target);
      DrainAppends(rev, mid, sink, target);
      AppendsKeepOrdered(rev, mid, Drain(rev, mid, sink, target), target);
    }
  }

  lemma {:induction false} RunKeepsOrdered(rev: Revision, st: State, rounds: seq<seq<Completion>>, sink: Sink, target: Dims)
    requires Ordered(rev, st, target)
    ensures Ordered(rev, Run(rev, st, rounds, sink, target), target)
    decreases |rounds|
  {
    if |rounds| > 0 && !st.aborted {
      RoundKeepsOrdered(rev, st, rounds[0], sink, target);
      RunKeepsOrdered(rev, Round(rev, st, rounds[0], sink, target), rounds[1..], sink, target);
    }
  }

  /** Whatever order the futures finish in, however they are batched and
      wherever the pipe breaks, the frames reach the encoder in strictly
      increasing index order, and each has the output shape. */
  lemma OutputInIndexOrder(rev: Revision, rounds: seq<seq<Completion>>, sink: Sink, target: Dims)
    ensures var r := Run(rev, Initial(), rounds, sink, target);
      && (forall i, j :: 0 <= i < j < |r.written| ==> r.written[i].index < r.written[j].index)
      && (forall i :: 0 <= i < |r.written| ==> 0 <= r.written[i].index < r.cursor)
      && (forall i :: 0 <= i < |r.written| ==> OutputShaped(rev, r.written[i].image, target))
  {
    RunKeepsOrdered(rev, Initial(), rounds, sink, target);
  }

  /** The frame indices a batch of completions is keyed under. */
  function Keys(rev: Revision, cs: seq<Completion>): set<int>
  {
    set c | c in cs :: KeyOf(rev, c)
  }

  /** Every frame index completes exactly once. */
  predicate KeysDistinct(rev: Revision, cs: seq<Completion>)
  {
    forall i, j :: 0 <= i < j < |cs| ==> KeyOf(rev, cs[i]) != KeyOf(rev, cs[j])
  }

  /** video_processor.py writes only correctly shaped results, so its
      delivery guarantee needs the workers to return those. */
  predicate ShapesOk(rev: Revision, cs: seq<Completion>, target: Dims)
  {
    rev == Modular ==> forall c :: c in cs && c.outcome.Returned? ==> WellShaped(c.outcome.result.image, target)
  }

  /** After the rounds collected so far (`done`): the cursor has passed
      exactly the indices `0 .. cursor - 1`, each written once in order;
      the pending results are exactly the collected ones at or beyond the
      cursor; and the cursor's own result is not pending. */
  ghost predicate Delivered(rev: Revision, st: State, done: seq<Completion>, target: Dims)
  {
    && !st.aborted && st.cursor >= 0 && |st.written| == st.cursor
    && (forall i :: 0 <= i < st.cursor ==>
          (Lookup(rev, done, i, target).Some?
           && st.written[i] == Written(i, Shown(rev, Lookup(rev, done, i, target).value, target))))
    && (forall k :: k in st.results <==> Lookup(rev, done, k, target).Some? && k >= st.cursor)
    && (forall k :: k in st.results ==> st.results[k] == Lookup(rev, done, k, target).value)
    && st.cursor !in st.results
  }

  /** With distinct keys, a completion's key finds its own image. */
  lemma LookupUnique(rev: Revision, cs: seq<Completion>, c: Completion, target: Dims)
    requires KeysDistinct(rev, cs) && c in cs
    ensures Lookup(rev, cs, KeyOf(rev, c), target) == Some(ImageOf(c, target))
  {
    var j :| 0 <= j < |cs| && cs[j] == c;
    var r := Lookup(rev, cs, KeyOf(rev, c), target);
    var i :| 0 <= i < |cs| && KeyOf(rev, cs[i]) == KeyOf(rev, c) && r.value == ImageOf(cs[i], target);
    assert i == j;
  }

  /** Keys not collected before, all non-negative. */
  predicate Fresh(rev: Revision, done: seq<Completion>, cs: seq<Completion>, target: Dims)
  {
    forall c :: c in cs ==> 0 <= KeyOf(rev, c) && Lookup(rev, done, KeyOf(rev, c), target).None?
  }

  /** Collecting fresh completions leaves exactly the collected results at
      or beyond the cursor pending, and nothing behind the cursor moves. */
  lemma CollectFresh(rev: Revision, st: State, done: seq<Completion>, cs: seq<Completion>, target: Dims)
    requires Delivered(rev, st, done, target) && Fresh(rev, done, cs, target)
    ensures var mid := CollectAll(rev, st, cs, target);
      && (forall k :: k in mid.results <==> Lookup(rev, done + cs, k, target).Some? && k >= st.cursor)
      && (forall k :: k in mid.results ==> mid.results[k] == Lookup(rev, done + cs, k, target).value)
      && (forall k :: k < st.cursor ==> Lookup(rev, done + cs, k, target) == Lookup(rev, done, k, target))
  {
    var mid := CollectAll(rev, st, cs, target);
    forall k
      ensures k in mid.results <==> Lookup(rev, done + cs, k, target).Some? && k >= st.cursor
      ensures k in mid.results ==> mid.results[k] == Lookup(rev, done + cs, k, target).value
      ensures k < st.cursor ==> Lookup(rev, done + cs, k, target) == Lookup(rev, done, k, target)
    {
      LookupAppend(rev, done, cs, k, target);
      if Lookup(rev, cs, k, target).Some? {
        var i :| 0 <= i < |cs| && KeyOf(rev, cs[i]) == k;
        assert cs[i] in cs;
      }
    }
  }

  /** Every stored result is one a completion produced, so all are well
      shaped when the returned ones are. */
  lemma StoredShapes(rev: Revision, results: map<int, Image>, all: seq<Completion>, target: Dims)
    requires ShapesOk(rev, all, target) && rev == Modular
    requires forall k :: k in results ==> Lookup(rev, all, k, target).Some? && results[k] == Lookup(rev, all, k, target).value
    ensures forall k :: k in results ==> WellShaped(results[k], target)
  {
    forall k | k in results
      ensures WellShaped(results[k], target)
    {
      var i :| 0 <= i < |all| && KeyOf(rev, all[i]) == k && results[k] == ImageOf(all[i], target);
      assert all[i] in all;
    }
  }

  /** A drain that writes the whole segment from the cursor keeps
      `Delivered`. */
  lemma DrainDelivers(rev: Revision, st: State, mid: State, r: State, all: seq<Completion>, target: Dims)
    requires !st.aborted && st.cursor >= 0 && |st.written| == st.cursor
    requires forall i :: 0 <= i < st.cursor ==>
      (Lookup(rev, all, i, target).Some?
       && st.written[i] == Written(i, Shown(rev, Lookup(rev, all, i, target).value, target)))
    requires mid.cursor == st.cursor
    requires forall k :: k in mid.results <==> Lookup(rev, all, k, target).Some? && k >= st.cursor
    requires forall k :: k in mid.results ==> mid.results[k] == Lookup(rev, all, k, target).value
    requires !r.aborted && r.cursor >= st.cursor && r.cursor !in r.results
    requires r.results == Without(mid.results, st.cursor, r.cursor)
    requires forall k :: st.cursor <= k < r.cursor ==> k in mid.results
    requires r.written == st.written + Segment(rev, mid.results, st.cursor, r.cursor, target)
    ensures Delivered(rev, r, all, target)
  {
    var seg := Segment(rev, mid.results, st.cursor, r.cursor, target);
    forall i | 0 <= i < r.cursor
      ensures Lookup(rev, all, i, target).Some?
      ensures r.written[i] == Written(i, Shown(rev, Lookup(rev, all, i, target).value, target))
    {
      if i >= st.cursor {
        assert r.written[i] == seg[i - st.cursor];
      } else {
        assert r.written[i] == st.written[i];
      }
    }
  }

  /** One round, with a pipe that never breaks, of completions whose keys
      were not collected before, keeps `Delivered`. */
  lemma RoundDelivers(rev: Revision, st: State, done: seq<Completion>, cs: seq<Completion>, target: Dims)
    requires Delivered(rev, st, done, target) && Fresh(rev, done, cs, target)
    requires ShapesOk(rev, done + cs, target)
    ensures Delivered(rev, Round(rev, st, cs, Unbounded, target), done + cs, target)
  {
    var mid := CollectAll(rev, st, cs, target);
    CollectFresh(rev, st, done, cs, target);
    if rev == Modular {
      StoredShapes(rev, mid.results, done + cs, target);
      DrainModularComplete(mid, target);
    }
    var r := Drain(rev, mid, Unbounded, target);
    assert r == Round(rev, st, cs, Unbounded, target);
    DrainDelivers(rev, st, mid, r, done + cs, target);
  }

  lemma {:induction false} RunDelivers(rev: Revision, st: State, done: seq<Completion>, rounds: seq<seq<Completion>>, target: Dims)
    requires Delivered(rev, st, done, target)
    requires KeysDistinct(rev, done + Flatten(rounds)) && ShapesOk(rev, done + Flatten(rounds), target)
    requires forall c :: c in Flatten(rounds) ==> 0 <= KeyOf(rev, c)
    ensures Delivered(rev, Run(rev, st, rounds, Unbounded, target), done + Flatten(rounds), target)
    decreases |rounds|
  {
    if |rounds| == 0 {
      assert done + Flatten(rounds) == done;
    } else {
      var cs := rounds[0];
      var later := Flatten(rounds[1..]);
      var all := done + Flatten(rounds);
      assert Flatten(rounds) == cs + later;
      assert all == (done + cs) + later;
      forall c | c in cs
        ensures 0 <= KeyOf(rev, c) && Lookup(rev, done, KeyOf(rev, c), target).None?
      {
        var j :| 0 <= j < |cs| && cs[j] == c;
        assert all[|done| + j] == c && c in Flatten(rounds);
        forall i | 0 <= i < |done|
          ensures KeyOf(rev, done[i]) != KeyOf(rev, c)
        {
          assert all[i] == done[i];
        }
      }
      assert forall c :: c in done + cs ==> c in all;
      RoundDelivers(rev, st, done, cs, target);
      assert forall c :: c in later ==> c in Flatten(rounds);
      RunDelivers(rev, Round(rev, st, cs, Unbounded, target), done + cs, rounds[1..], target);
    }
  }

  /** When every frame index `0 .. n - 1` completes exactly once, in any
      order and any batching, and the pipe never breaks (with
      video_processor.py, also when every returned frame has the target
      shape): the run ends with every frame written, frame `k` at position
      `k` showing index `k`'s result, and nothing left pending. */
  lemma InOrderDelivery(rev: Revision, rounds: seq<seq<Completion>>, n: nat, target: Dims)
    requires KeysDistinct(rev, Flatten(rounds)) && ShapesOk(rev, Flatten(rounds), target)
    requires forall c :: c in Flatten(rounds) ==> 0 <= KeyOf(rev, c) < n
    requires forall k :: 0 <= k < n ==> k in Keys(rev, Flatten(rounds))
    ensures var r := Run(rev, Initial(), rounds, Unbounded, target);
      && !r.aborted && r.cursor == n && |r.written| == n && r.results == map[]
      && forall c :: c in Flatten(rounds) ==>
           r.written[KeyOf(rev, c)] == Written(KeyOf(rev, c), Shown(rev, ImageOf(c, target), target))
  {
    var all := Flatten(rounds);
    assert [] + all == all;
    RunDelivers(rev, Initial(), [], rounds, target);
    var r := Run(rev, Initial(), rounds, Unbounded, target);
    DeliveredAll(rev, r, all, n, target);
    forall c | c in all
      ensures r.written[KeyOf(rev, c)] == Written(KeyOf(rev, c), Shown(rev, ImageOf(c, target), target))
    {
      LookupUnique(rev, all, c, target);
    }
  }

  /** Once exactly the keys `0 .. n - 1` are collected, `Delivered` means
      the cursor is at `n` and nothing is pending. */
  lemma DeliveredAll(rev: Revision, r: State, all: seq<Completion>, n: nat, target: Dims)
    requires Delivered(rev, r, all, target)
    requires forall c :: c in all ==> 0 <= KeyOf(rev, c) < n
    requires forall k :: 0 <= k < n ==> k in Keys(rev, all)
    ensures r.cursor == n && r.results == map[]
  {
    forall k | 0 <= k < n
      ensures Lookup(rev, all, k, target).Some?
    {
      assert k in Keys(rev, all);
      var c :| c in all && KeyOf(rev, c) == k;
      var j :| 0 <= j < |all| && all[j] == c;
    }
    forall k | Lookup(rev, all, k, target).Some?
      ensures 0 <= k < n
    {
      var i :| 0 <= i < |all| && KeyOf(rev, all[i]) == k;
      assert all[i] in all;
    }
    assert Lookup(rev, all, r.cursor, target).None?;
    if r.cursor > 0 {
      assert Lookup(rev, all, r.cursor - 1, target).Some?;
    }
    assert r.cursor == n;
    forall k
      ensures k !in r.results
    {
      if Lookup(rev, all, k, target).Some? {
        assert k < n;
      }
    }
    assert r.results.Keys == {};
  }
}

=== FILE: sizing.dfy ===
/** The set-up arithmetic of `process_video` in both revisions: video
    property checks, processing dimensions, worker count, queue sizes, the
    in-flight bound and the number of extra end-of-work sentinels. */
module Sizing {
  import opened Basics

  /** What `cv2.VideoCapture` reports: nothing when the file cannot be
      opened, otherwise frame count, frame rate and geometry. */
  datatype Capture = Unopened | Opened(totalFrames: int, fps: real, width: nat, height: nat)

  datatype Dims = Dims(width: nat, height: nat)

  /** Everything the control loop, reader and workers need, computed once
      before the pipeline starts and never changed afterwards. */
  datatype RunPlan = RunPlan(
    workers: int,          // num_threads
    queueCapacity: int,    // maxsize of the frame queue
    readerBound: int,      // qsize at which the reader waits instead of reading
    inFlightLimit: int,    // submit only while fewer futures are pending
    extraSentinels: int,   // non-blocking end markers attempted after the loop
    totalFrames: int,
    orig: Dims,
    target: Dims)

  /** Why set-up stops before any frame is read. */
  datatype SetupError =
    | CannotOpen        // Modular raises FileNotFoundError; Draft prints and returns
    | InvalidProperties // Modular only: no frames or no frame rate (ValueError)

  datatype Setup = Ready(plan: RunPlan) | Stopped(error: SetupError)

  /** Processing is downscaled exactly when a width strictly between zero
      and the source width is requested. */
  predicate Downscales(origW: nat, processingWidth: Option<int>)
  {
    processingWidth.Some? && 0 < processingWidth.value < origW
  }

  lemma DivBounds(a: nat, b: nat)
    requires b > 0
    ensures (a / b) * b <= a < (a / b + 1) * b
  {
  }

  /** Processing dimensions (video_processor.py and main.py alike, in exact
      arithmetic): the requested width, and the height scaled by the same
      ratio, rounded down and then bumped up to even. The height is the
      even number `h` with `h - 1 <= pw*H/W < h + 1`, and never exceeds the
      source height. */
  function TargetDims(origW: nat, origH: nat, processingWidth: Option<int>): (r: Dims)
    ensures !Downscales(origW, processingWidth) ==> r == Dims(origW, origH)
    ensures Downscales(origW, processingWidth) ==>
      && r.width == processingWidth.value
      && r.height % 2 == 0
      && (r.height - 1) * origW <= processingWidth.value * origH < (r.height + 1) * origW
      && r.height <= origH
  {
    if Downscales(origW, processingWidth) then
      var pw: nat := processingWidth.value;
      var q := (pw * origH) / origW;
      var h := if q % 2 == 0 then q else q + 1;
      TargetHeightFacts(pw, origW, origH, q, h);
      Dims(pw, h)
    else
      Dims(origW, origH)
  }

  lemma MulMono(a: int, b: int, c: nat)
    requires a <= b
    ensures a * c <= b * c
  {
  }

  lemma MulStrict(a: int, b: int, c: nat)
    requires a < b && c > 0
    ensures a * c < b * c
  {
  }

  lemma TargetHeightFacts(pw: nat, origW: nat, origH: nat, q: nat, h: nat)
    requires 0 < pw < origW
    requires q == (pw * origH) / origW
    requires h == if q % 2 == 0 then q else q + 1
    ensures h % 2 == 0
    ensures (h - 1) * origW <= pw * origH < (h + 1) * origW
    ensures h <= origH
  {
    DivBounds(pw * origH, origW);
    MulMono(h - 1, q, origW);
    MulMono(q + 1, h + 1, origW);
    if origH > 0 {
      MulStrict(pw, origW, origH);
      assert origW * origH == origH * origW;
      if q >= origH {
        MulMono(origH, q, origW);
      }
    }
  }

  /** Default worker count when none is given: one less than the CPU count
      but at least one (Modular), or twice the CPU count capped at 16
      (Draft). `cpuCount` is `os.cpu_count()`. */
  function DefaultWorkers(rev: Revision, cpuCount: nat): (n: int)
    ensures rev == Modular ==> n >= 1 && n >= cpuCount - 1 && (cpuCount >= 2 ==> n == cpuCount - 1)
    ensures rev == Modular && cpuCount <= 1 ==> n == 1
    ensures rev == Draft ==> n <= 16 && n <= 2 * cpuCount && (cpuCount >= 1 ==> n >= 2)
    ensures rev == Draft ==> n == 16 || n == 2 * cpuCount
  {
    match rev
    case Modular => MaxInt(1, cpuCount - 1)
    case Draft => MinInt(2 * cpuCount, 16)
  }

  /** main.py's reader threshold: 32 for short videos, otherwise half the
      frame count capped at 64. It is always 32 or between 50 and 64. */
  function DraftReaderBound(totalFrames: int): (n: int)
    ensures n == 32 || 50 <= n <= 64
    ensures totalFrames <= 100 <==> n == 32
    ensures totalFrames > 100 ==> n == MinInt(64, totalFrames / 2)
  {
    if totalFrames > 100 then MinInt(64, totalFrames / 2) else 32
  }

  /** main.py's frame queue is a module-level `Queue(maxsize=16)`. */
  const DraftQueueCapacity: int := 16

  /** Extra non-blocking end markers the reader attempts on exit. */
  function ExtraSentinels(rev: Revision, workers: int): (n: int)
    ensures n >= 5
    ensures rev == Draft ==> n == 5
    ensures rev == Modular ==> n >= 2 * workers && (n == 5 || n == 2 * workers)
  {
    match rev
    case Modular => MaxInt(5, 2 * workers)
    case Draft => 5
  }

  /** Set-up of `process_video`: open the capture, validate it (Modular
      only), pick the worker count and derive every bound from it. */
  function PlanRun(rev: Revision, cap: Capture, processingWidth: Option<int>, threads: Option<int>, cpuCount: nat): (r: Setup)
    ensures cap.Unopened? ==> r == Stopped(CannotOpen)
    ensures rev == Modular && cap.Opened? ==>
      (r.Stopped? <==> cap.totalFrames <= 0 || cap.fps <= 0.0)
    ensures rev == Draft && cap.Opened? ==> r.Ready?
    ensures r.Ready? ==> r.plan.inFlightLimit == 2 * r.plan.workers
    ensures r.Ready? && threads.None? && rev == Modular ==> r.plan.workers >= 1
    ensures r.Ready? && threads.Some? ==> r.plan.workers == threads.value
    ensures r.Ready? && rev == Modular ==>
      r.plan.queueCapacity == 4 * r.plan.workers && r.plan.readerBound == r.plan.queueCapacity
    ensures r.Ready? && rev == Draft ==>
      r.plan.queueCapacity == 16 && r.plan.readerBound > r.plan.queueCapacity
    ensures r.Ready? ==> r.plan.extraSentinels >= 5
    ensures r.Ready? ==> r.plan.target.height <= r.plan.orig.height && r.plan.target.width <= r.plan.orig.width
  {
    match cap
    case Unopened => Stopped(CannotOpen)
    case Opened(total, fps, w, h) =>
      if rev == Modular && (total <= 0 || fps <= 0.0) then Stopped(InvalidProperties)
      else
        var workers := if threads.Some? then threads.value else DefaultWorkers(rev, cpuCount);
        var capacity := if rev == Modular then 4 * workers else DraftQueueCapacity;
        var bound := if rev == Modular then capacity else DraftReaderBound(total);
        Ready(RunPlan(workers, capacity, bound, 2 * workers, ExtraSentinels(rev, workers),
                      total, Dims(w, h), TargetDims(w, h, processingWidth)))
  }
}

=== FILE: skeleton.dfy ===
/** The constant tables of modules/skeletor-py/config.py (duplicated in
    main.py): the MoveNet model table, the 17-keypoint name table and the
    12-edge skeleton, with the structural facts the drawing code relies on.
    The one piece of logic of model_loader.py, the table lookup that raises
    on an unknown model type, is folded in here as `LoadModel`. */
module Skeleton {
  import opened Basics

  const KeypointCount: nat := 17

  /** Keypoint names in index order. */
  const JointNames: seq<string> := [
    "nose", "left_eye", "right_eye", "left_ear", "right_ear",
    "left_shoulder", "right_shoulder", "left_elbow", "right_elbow",
    "left_wrist", "right_wrist", "left_hip", "right_hip",
    "left_knee", "right_knee", "left_ankle", "right_ankle"
  ]

  /** KEYPOINT_DICT: joint name to keypoint index. */
  const KeypointDict: map<string, nat> := map[
    "nose" := 0, "left_eye" := 1, "right_eye" := 2, "left_ear" := 3, "right_ear" := 4,
    "left_shoulder" := 5, "right_shoulder" := 6, "left_elbow" := 7, "right_elbow" := 8,
    "left_wrist" := 9, "right_wrist" := 10, "left_hip" := 11, "right_hip" := 12,
    "left_knee" := 13, "right_knee" := 14, "left_ankle" := 15, "right_ankle" := 16
  ]

  const LeftShoulder: nat := 5
  const RightShoulder: nat := 6
  const LeftElbow: nat := 7
  const RightElbow: nat := 8
  const LeftWrist: nat := 9
  const RightWrist: nat := 10
  const LeftHip: nat := 11
  const RightHip: nat := 12
  const LeftKnee: nat := 13
  const RightKnee: nat := 14
  const LeftAnkle: nat := 15
  const RightAnkle: nat := 16

  /** The named indices are the table's own entries. */
  lemma NamedIndicesAgree()
    ensures LeftShoulder == KeypointDict["left_shoulder"] && RightShoulder == KeypointDict["right_shoulder"]
    ensures LeftElbow == KeypointDict["left_elbow"] && RightElbow == KeypointDict["right_elbow"]
    ensures LeftWrist == KeypointDict["left_wrist"] && RightWrist == KeypointDict["right_wrist"]
    ensures LeftHip == KeypointDict["left_hip"] && RightHip == KeypointDict["right_hip"]
    ensures LeftKnee == KeypointDict["left_knee"] && RightKnee == KeypointDict["right_knee"]
    ensures LeftAnkle == KeypointDict["left_ankle"] && RightAnkle == KeypointDict["right_ankle"]
  {
  }

  /** An undirected skeleton edge between two keypoint indices. */
  datatype Edge = Edge(a: nat, b: nat)

  /** SKELETON_LINES, in the order the mask code draws them. */
  const SkeletonLines: seq<Edge> := [
    Edge(LeftShoulder, RightShoulder),
    Edge(LeftShoulder, LeftElbow),
    Edge(RightShoulder, RightElbow),
    Edge(LeftElbow, LeftWrist),
    Edge(RightElbow, RightWrist),
    Edge(LeftShoulder, LeftHip),
    Edge(RightShoulder, RightHip),
    Edge(LeftHip, RightHip),
    Edge(LeftHip, LeftKnee),
    Edge(RightHip, RightKnee),
    Edge(LeftKnee, LeftAnkle),
    Edge(RightKnee, RightAnkle)
  ]

  predicate SameEdge(e: Edge, f: Edge)
  {
    (e.a == f.a && e.b == f.b) || (e.a == f.b && e.b == f.a)
  }

  predicate IsEndpoint(k: nat)
  {
    exists i :: 0 <= i < |SkeletonLines| && (SkeletonLines[i].a == k || SkeletonLines[i].b == k)
  }

  /** An entry of MODEL_INFO. */
  datatype ModelSpec = ModelSpec(url: string, inputSize: nat)

  const ModelInfo: map<string, ModelSpec> := map[
    "thunder" := ModelSpec("https://tfhub.dev/google/movenet/singlepose/thunder/4", 256),
    "lightning" := ModelSpec("https://tfhub.dev/google/movenet/singlepose/lightning/4", 192),
    "multipose_lightning" := ModelSpec("https://tfhub.dev/google/movenet/multipose/lightning/1", 256)
  ]

  /** `load_model`'s table lookup: an unknown model type raises ValueError
      (`None` here); a known one yields its URL and input size. */
  function LoadModel(modelType: string): (r: Option<ModelSpec>)
    ensures r.Some? <==> modelType in {"thunder", "lightning", "multipose_lightning"}
    ensures r.Some? ==> r.value.inputSize in {192, 256}
    ensures r.Some? ==> (r.value.inputSize == 192 <==> modelType == "lightning")
  {
    if modelType in ModelInfo then Some(ModelInfo[modelType]) else None
  }

  /** KEYPOINT_DICT is a bijection from the 17 joint names onto 0..16, and
      `JointNames` is its inverse. */
  lemma KeypointDictIsBijection()
    ensures |JointNames| == KeypointCount
    ensures KeypointDict.Keys == set name | name in JointNames
    ensures forall v :: v in KeypointDict.Values ==> v < KeypointCount
    ensures forall v: nat :: v < KeypointCount ==> v in KeypointDict.Values
    ensures forall i :: 0 <= i < |JointNames| ==> KeypointDict[JointNames[i]] == i
    ensures forall name :: name in KeypointDict ==> JointNames[KeypointDict[name]] == name
  {
    forall i | 0 <= i < |JointNames|
      ensures JointNames[i] in KeypointDict && KeypointDict[JointNames[i]] == i
    {
    }
    forall v: nat | v < KeypointCount
      ensures v in KeypointDict.Values
    {
      assert KeypointDict[JointNames[v]] == v;
    }
    forall v | v in KeypointDict.Values
      ensures v < KeypointCount
    {
      var name :| name in KeypointDict && KeypointDict[name] == v;
      assert name in JointNames;
      var i :| 0 <= i < |JointNames| && JointNames[i] == name;
      assert KeypointDict[JointNames[i]] == i;
    }
  }

  /** Twelve edges, all between shoulders, elbows, wrists, hips, knees and
      ankles (indices 5..16): no head keypoint is an edge endpoint; no
      edge is a loop and none occurs twice, in either orientation. */
  lemma SkeletonLinesShape()
    ensures |SkeletonLines| == 12
    ensures forall i :: 0 <= i < |SkeletonLines| ==>
      5 <= SkeletonLines[i].a < KeypointCount && 5 <= SkeletonLines[i].b < KeypointCount
    ensures forall i :: 0 <= i < |SkeletonLines| ==> SkeletonLines[i].a != SkeletonLines[i].b
    ensures forall i, j :: 0 <= i < j < |SkeletonLines| ==> !SameEdge(SkeletonLines[i], SkeletonLines[j])
    ensures forall k :: 0 <= k < 5 ==> !IsEndpoint(k)
  {
  }

  /** Every limb joint is reached by an edge, and the four torso edges
      (shoulders, sides, hips) close a cycle LS-RS-RH-LH. */
  lemma SkeletonLinesCoverLimbsAndTorso()
    ensures forall k :: k in {7, 8, 9, 10, 13, 14, 15, 16} ==> IsEndpoint(k)
    ensures Edge(LeftShoulder, RightShoulder) in SkeletonLines
    ensures Edge(RightShoulder, RightHip) in SkeletonLines
    ensures Edge(LeftHip, RightHip) in SkeletonLines
    ensures Edge(LeftShoulder, LeftHip) in SkeletonLines
  {
    assert SkeletonLines[1].b == 7 && SkeletonLines[2].b == 8;
    assert SkeletonLines[3].b == 9 && SkeletonLines[4].b == 10;
    assert SkeletonLines[8].b == 13 && SkeletonLines[9].b == 14;
    assert SkeletonLines[10].b == 15 && SkeletonLines[11].b == 16;
  }
}

=== FILE: worker.dfy ===
/** `process_frame` (video_processor.py, and its twin in main.py): one
    frame in, one indexed BGRA frame out. Resizing, inference and the
    OpenCV rasterisers are foreign and come in through `Env`. */
module Worker {
  import opened Basics
  import opened Images
  import opened PoseDetector
  import opened Masking

  /** The per-run parameters every task carries. */
  datatype Params = Params(
    threshold: real,
    radius: int,
    dilationIterations: int,
    blurKernelSize: int,
    targetW: nat,
    targetH: nat,
    origW: nat)

  /** A task as the reader enqueues it: the decoded frame (`None` stands for
      a missing frame), its index and the parameters. */
  datatype Task = Task(frame: Option<Image>, index: int, params: Params)

  /** What the worker returns: `(frame_idx, result)`. */
  datatype Indexed = Indexed(index: int, image: Image)

  /** The foreign parts of a worker: `cv2.resize`, the detector's raw
      output for a given input image (`None` when inference fails), the
      model input size, and the OpenCV drawing and filtering. */
  datatype Env = Env(
    resize: (Image, nat, nat) -> Image,
    infer: Image -> Option<RawOutput>,
    inputSize: Option<int>,
    raster: Raster)

  /** `cv2.resize` yields the requested size with the channels unchanged
      and byte values; the filters keep planes' geometry and range. */
  ghost predicate EnvBehaves(env: Env)
  {
    && FiltersBehave(env.raster)
    && forall img: Image, w: nat, h: nat :: WellFormed(img) ==>
         (WellFormed(env.resize(img, w, h)) && HasShape(env.resize(img, w, h), h, w, img.channels)
          && (ByteImage(img) ==> ByteImage(env.resize(img, w, h))))
  }

  predicate FrameOk(task: Task)
  {
    task.frame.Some? ==> WellFormed(task.frame.value) && ByteImage(task.frame.value)
  }

  /** The frame as a numpy argument for the detector. */
  function AsArray(img: Image): FrameArg
  {
    Array([img.height as int, img.width as int, img.channels as int])
  }

  /** The frame is resized exactly when the target width differs from the
      source width. */
  predicate Resizes(p: Params)
  {
    p.targetW != p.origW
  }

  /** The steps inside the `try` that raise: `cv2.resize` from or to an
      empty size, and `apply_mask` on a frame with fewer than three
      channels. */
  predicate Raises(img: Image, p: Params)
  {
    || (Resizes(p) && (p.targetW == 0 || p.targetH == 0 || img.height == 0 || img.width == 0))
    || img.channels < 3
  }

  /** The frame the detector and the mask see. */
  function Processed(img: Image, p: Params, env: Env): (r: Image)
    requires EnvBehaves(env) && WellFormed(img) && ByteImage(img)
    ensures WellFormed(r) && ByteImage(r) && r.channels == img.channels
    ensures Resizes(p) ==> r.height == p.targetH && r.width == p.targetW
    ensures !Resizes(p) ==> r == img
  {
    if Resizes(p) then env.resize(img, p.targetW, p.targetH) else img
  }

  /** The mask for the processed frame: all zero unless at least one
      person was detected, otherwise the rendered mask plan. */
  function FrameMask(img: Image, p: Params, env: Env): (m: seq<seq<int>>)
    requires EnvBehaves(env) && WellFormed(img)
    ensures IsPlane(m, img.height, img.width) && BytePlane(m)
  {
    var persons := DetectPose(AsArray(img), env.inputSize, p.threshold, env.infer(img));
    if persons.Some? && |persons.value| > 0 then
      RenderMask(CreateMask(img.height, img.width, persons, p.threshold, p.radius,
                            p.dilationIterations, p.blurKernelSize), env.raster)
    else
      ZeroPlane(img.height, img.width)
  }

  /** `process_frame` on a well-formed task. A missing frame, and any
      failure inside the `try`, yields the transparent blank of the target
      size; the index is the task's own in every case. Otherwise the result
      has the processed frame's size, its alpha channel is the mask, and its
      colour channels blend the frame towards white where the mask is
      weak. */
  function ProcessFrame(task: Task, env: Env): (r: Indexed)
    requires EnvBehaves(env) && FrameOk(task)
    ensures r.index == task.index
    ensures WellFormed(r.image) && r.image.channels == 4
    ensures task.frame.None? ==> r.image == Blank(task.params.targetH, task.params.targetW)
    ensures task.frame.Some? && Raises(task.frame.value, task.params) ==>
      r.image == Blank(task.params.targetH, task.params.targetW)
    ensures task.frame.Some? && !Raises(task.frame.value, task.params) ==>
      var img := Processed(task.frame.value, task.params, env);
      var m := FrameMask(img, task.params, env);
      && HasShape(r.image, img.height, img.width, 4)
      && (forall i, j :: 0 <= i < img.height && 0 <= j < img.width ==> r.image.pixels[i][j][3] == m[i][j])
      && (forall i, j, k :: 0 <= i < img.height && 0 <= j < img.width && 0 <= k < 3 ==>
            img.pixels[i][j][k] <= r.image.pixels[i][j][k] <= 255
            && (m[i][j] == 255 ==> r.image.pixels[i][j][k] == img.pixels[i][j][k]))
  {
    var p := task.params;
    match task.frame
    case None => Indexed(task.index, Blank(p.targetH, p.targetW))
    case Some(frame) =>
      if Raises(frame, p) then Indexed(task.index, Blank(p.targetH, p.targetW))
      else
        var img := Processed(frame, p, env);
        Indexed(task.index, ApplyMask(img, FrameMask(img, p, env)))
  }

  /** Where nothing is detected, the output frame is fully transparent
      white. */
  lemma NoDetectionIsTransparentWhite(task: Task, env: Env)
    requires EnvBehaves(env) && FrameOk(task)
    requires task.frame.Some? && !Raises(task.frame.value, task.params)
    requires var img := Processed(task.frame.value, task.params, env);
      var persons := DetectPose(AsArray(img), env.inputSize, task.params.threshold, env.infer(img));
      persons.None? || persons.value == []
    ensures var r := ProcessFrame(task, env).image;
      forall i, j, k :: 0 <= i < r.height && 0 <= j < r.width && 0 <= k < 4 ==>
        r.pixels[i][j][k] == if k == 3 then 0 else 255
  {
    var img := Processed(task.frame.value, task.params, env);
    var r := ProcessFrame(task, env).image;
    forall i, j, k | 0 <= i < r.height && 0 <= j < r.width && 0 <= k < 4
      ensures r.pixels[i][j][k] == if k == 3 then 0 else 255
    {
      assert FrameMask(img, task.params, env)[i][j] == 0;
    }
  }
}
